=== FILE: README.md ===
# Calendar to-do list: a Dafny model

A model of a small Android to-do calendar. Tasks carry a description, a
completion flag and a due date, and are kept in a Room/SQLite table. Dates are
stored in the ISO local-date text form `YYYY-MM-DD`. A view-model holds the
selected date and turns the user's intents into table operations. The calendar
screen shows a month grid and a preview of the selected day's tasks. The day
screen, reached with the day's epoch number, lists all of that day's tasks.
A create/edit dialog builds the task to save.

The modules follow the program:

- `Calendar` and `EpochDay` give the meaning of `java.time.LocalDate`: the
  proleptic Gregorian calendar over years -999999999..999999999, month steps
  with the day clamped, epoch-day conversion and localized weekdays.
- `Converters` covers the ISO local-date text form with its strict parse.
- `Tasks` is the entity; `TaskDao` is the table with its queries and
  mutations.
- `TaskViewModel` models the view-model.
- `CalendarView` is the month grid.
- `TaskFormDialog` is the dialog.
- `Screens` holds the dialog and dispatch logic both screens share.
- `CalendarScreen` and `DailyTasksScreen` are the two screens.

The table is a map from id to task plus SQLite's AUTOINCREMENT high-water
mark. Room binds an id of 0 as NULL, so inserting a task with id 0 stores it
under one more than the largest id the table ever held. Inserting under an
existing id replaces that row. Update and delete of a missing id change
nothing. The subset type `TaskDao.Store` carries the invariant that every row
is stored under its own id and that ids are unique. Every mutation returns a
`Store`, so each one is proved to keep the invariant.

The screens pass a confirmed new task to `addTask` with only its
description and date. A task created with the "completed" box ticked is
therefore stored as open (`Screens.CreateThroughForm`). The model keeps this
behaviour as written.

## Model

| member | source | states |
|---|---|---|
| Calendar.LengthOfMonth | app/src/main/java/com/example/calendar/ui/components/CalendarView.kt:56 | a month has 28..31 days, and 29 exactly for February of a Gregorian leap year |
| Calendar.WithDayOfMonth | app/src/main/java/com/example/calendar/ui/components/CalendarView.kt:68 | the result stays in the same month and carries the requested day |
| Calendar.PlusMonths | app/src/main/java/com/example/calendar/ui/viewmodel/TaskViewModel.kt:50-52 | succeeds exactly when the target month is inside the supported years; moves exactly n months; the day is kept when the target month has it and is otherwise that month's last day |
| Calendar.MinusMonths | app/src/main/java/com/example/calendar/ui/viewmodel/TaskViewModel.kt:54-56 | the same as PlusMonths, n months back |
| Calendar.PlusMonthsUndone | app/src/main/java/com/example/calendar/ui/viewmodel/TaskViewModel.kt:50-56 | n months forward then back restores the date exactly when no clamping happened on the way out |
| EpochDay.ToEpochDay | app/src/main/java/com/example/calendar/ui/screens/CalendarScreen.kt:119 | every supported date has an epoch day inside the library's EPOCH_DAY range |
| EpochDay.ToEpochDayInjective | app/src/main/java/com/example/calendar/ui/screens/CalendarScreen.kt:119 | distinct dates have distinct epoch days |
| EpochDay.ToEpochDayMatchesLibrary | app/src/main/java/com/example/calendar/ui/screens/CalendarScreen.kt:119 | the day count equals the library's own formula, which uses truncating division |
| EpochDay.OfEpochDay | app/src/main/java/com/example/calendar/ui/screens/DailyTasksScreen.kt:29 | succeeds exactly on the EPOCH_DAY range, and returns the date whose epoch day is the argument |
| EpochDay.EpochDayRoundTrip | app/src/main/java/com/example/calendar/ui/screens/DailyTasksScreen.kt:29 | a date passed to the day screen as its epoch day arrives unchanged |
| EpochDay.DateRoundTrip | app/src/main/java/com/example/calendar/ui/screens/DailyTasksScreen.kt:29 | every supported epoch day becomes a date and back unchanged |
| EpochDay.LocalizedDayOfWeek | app/src/main/java/com/example/calendar/ui/components/CalendarView.kt:55 | the position 1..7 in the locale's week; it is 1 exactly on the locale's first weekday |
| EpochDay.EpochWasThursday | app/src/main/java/com/example/calendar/ui/components/CalendarView.kt:55 | 1970-01-01 is epoch day 0 and an ISO Thursday |
| EpochDay.WeekdaysCycle | app/src/main/java/com/example/calendar/ui/components/CalendarView.kt:55 | consecutive days have cyclically consecutive weekdays |
| Converters.Format | app/src/main/java/com/example/calendar/data/Converters.kt:18-20 | for years 0..9999 the text has 10 characters, '-' at positions 4 and 7, and digit fields whose values are the year, month and day |
| Converters.ParseYearOfFormat | app/src/main/java/com/example/calendar/data/Converters.kt:13-20 | the year field of any supported year, signed and padded as stored, reads back as that year and leaves the rest of the text |
| Converters.ParseFormatRoundTrip | app/src/main/java/com/example/calendar/data/Converters.kt:13-20 | parsing the stored text of any supported date gives the date back |
| Converters.ParseFullDate | app/src/main/java/com/example/calendar/data/Converters.kt:14 | a text shaped like YYYY-MM-DD parses exactly when it names a real day, such as not month 13 or 30 February; otherwise the parse fails |
| Converters.Parse | app/src/main/java/com/example/calendar/data/Converters.kt:14 | an accepted text is a whole year field (four digits unsigned, five to ten after '+', four to ten after '-' for a year before 0000) naming the date's year, followed by "-MM-DD" with the date's two-digit month and day; one that starts with a digit is exactly the stored form of the date |
| Converters.ParseOfShape | app/src/main/java/com/example/calendar/data/Converters.kt:14 | conversely, every such year field followed by the two-digit month and day of a real date is accepted and gives that date |
| Converters.FormatInjective | app/src/main/java/com/example/calendar/data/Converters.kt:18-20 | distinct dates are stored as distinct texts |
| Converters.DateToTimestamp | app/src/main/java/com/example/calendar/data/Converters.kt:18-20 | null is written exactly for a null date; the text written for a date parses back to that date |
| Converters.FromTimestamp | app/src/main/java/com/example/calendar/data/Converters.kt:13-15 | a null text reads as a null date, and only a null text does |
| Converters.ConverterRoundTrip | app/src/main/java/com/example/calendar/data/Converters.kt:13-20 | every column value, null included, reads back as written |
| Tasks.NewTaskDefaults | app/src/main/java/com/example/calendar/data/Task.kt:10-19 | a task built from a description alone has id 0, is open and is due today |
| Tasks.Toggled | app/src/main/java/com/example/calendar/ui/viewmodel/TaskViewModel.kt:77 | the completion flag is negated; id, description and due date are kept |
| Tasks.ToggledInvolution | app/src/main/java/com/example/calendar/ui/viewmodel/TaskViewModel.kt:77 | toggling twice gives back the task |
| TaskDao.GetAllTasks | app/src/main/java/com/example/calendar/data/TaskDao.kt:16-17 | every stored task exactly once, each as stored, by strictly decreasing id |
| TaskDao.DescendingListingUnique | app/src/main/java/com/example/calendar/data/TaskDao.kt:16-17 | two id-descending listings of stored rows with the same members are the same list, so the order is fully determined |
| TaskDao.GetTasksForDate | app/src/main/java/com/example/calendar/data/TaskDao.kt:20-21 | exactly the stored tasks due on the date, by strictly decreasing id |
| TaskDao.FilterByDate | app/src/main/java/com/example/calendar/ui/screens/DailyTasksScreen.kt:40-44 | keeps exactly the tasks due on the date, each as many times as the input holds it, as an order-preserving sub-list of the input |
| TaskDao.ForDateIsFilteredListing | app/src/main/java/com/example/calendar/data/TaskDao.kt:20-21 | the date query is the full listing filtered by date, an order-preserving sub-list of it |
| TaskDao.InsertedId | app/src/main/java/com/example/calendar/data/TaskDao.kt:23-24 | id 0 gets an id that is unused and larger than every stored id; any other id is kept |
| TaskDao.Insert | app/src/main/java/com/example/calendar/data/TaskDao.kt:23-24 | the task is stored under its id; all other rows are unchanged; the row count grows by one unless the id was taken; the next new id is unchanged unless the stored id reached it, and then it is one past that id |
| TaskDao.InsertNewHeadsListing | app/src/main/java/com/example/calendar/data/TaskDao.kt:16-24 | after inserting a new task, the full listing is that task followed by the previous listing |
| TaskDao.InsertExistingKeepsSize | app/src/main/java/com/example/calendar/data/TaskDao.kt:23 | a replacing insert keeps the number of tasks and lists the new version |
| TaskDao.Update | app/src/main/java/com/example/calendar/data/TaskDao.kt:26-27 | the row with the task's id becomes the task; without such a row the table is unchanged; no other row changes; the next new id is unchanged |
| TaskDao.Delete | app/src/main/java/com/example/calendar/data/TaskDao.kt:29-30 | the row with the task's id is gone, the others are unchanged, and the count drops by one if it was there; the next new id is unchanged, as the AUTOINCREMENT counter is never lowered |
| TaskDao.DeletedIdNotReused | app/src/main/java/com/example/calendar/data/Task.kt:10-11 | after a stored task is deleted, the next new task gets an id larger than the deleted one, so ids are never reused |
| TaskDao.DeleteChangesIff | app/src/main/java/com/example/calendar/data/TaskDao.kt:29-30 | a delete changes the table exactly when a row has the task's id |
| TaskDao.DeleteRemovesFromListing | app/src/main/java/com/example/calendar/data/TaskDao.kt:29-30 | after a delete, no listed task has that id and every other task is still listed |
| TaskDao.DeleteAll | app/src/main/java/com/example/calendar/data/TaskDao.kt:32-33 | the table is empty, and the next new task's id is the same as it would have been before |
| TaskDao.DeleteAllEmptiesQueries | app/src/main/java/com/example/calendar/data/TaskDao.kt:32-33 | after deleting all, both queries return nothing |
| TaskViewModel.Create | app/src/main/java/com/example/calendar/ui/viewmodel/TaskViewModel.kt:24-43 | today is selected and both lists start empty, which is settled exactly when the table is empty |
| TaskViewModel.Settle | app/src/main/java/com/example/calendar/ui/viewmodel/TaskViewModel.kt:30-43 | settled lists are the two queries; the day list is the full list filtered by the selected date |
| TaskViewModel.SelectDate | app/src/main/java/com/example/calendar/ui/viewmodel/TaskViewModel.kt:46-48 | the selected date becomes the argument and nothing else in the state changes; the day list follows the new date |
| TaskViewModel.LatestSelectionWins | app/src/main/java/com/example/calendar/ui/viewmodel/TaskViewModel.kt:29-36 | after two selections only the last one decides the day list |
| TaskViewModel.GoToNextMonth | app/src/main/java/com/example/calendar/ui/viewmodel/TaskViewModel.kt:50-52 | fails only past the last supported month; otherwise only the selected date changes, to the next month, its day kept if that month has it and otherwise the month's last day |
| TaskViewModel.GoToPreviousMonth | app/src/main/java/com/example/calendar/ui/viewmodel/TaskViewModel.kt:54-56 | fails only before the first supported month; otherwise only the selected date changes, to the previous month, its day kept if that month has it and otherwise the month's last day |
| TaskViewModel.AddTask | app/src/main/java/com/example/calendar/ui/viewmodel/TaskViewModel.kt:60-65 | the listing gains, at its head, an open task with a fresh id and the given description and due date |
| TaskViewModel.UpdateTask | app/src/main/java/com/example/calendar/ui/viewmodel/TaskViewModel.kt:68-72 | the stored row becomes the task unchanged, or nothing changes if the id is unknown; no other row changes |
| TaskViewModel.ToggleTaskCompletion | app/src/main/java/com/example/calendar/ui/viewmodel/TaskViewModel.kt:75-79 | the row is written with the flag negated and the task's description and date |
| TaskViewModel.ToggleTwiceRestores | app/src/main/java/com/example/calendar/ui/viewmodel/TaskViewModel.kt:75-79 | toggling twice, each time on the stored version, restores the table |
| TaskViewModel.DeleteTask | app/src/main/java/com/example/calendar/ui/viewmodel/TaskViewModel.kt:82-86 | the task's row is gone, no other row changes, and the settled day list no longer shows it |
| CalendarView.StartOffset | app/src/main/java/com/example/calendar/ui/components/CalendarView.kt:58 | the number of blanks before day 1 is in 0..6, one less than the 1st's weekday position |
| CalendarView.LayoutOf | app/src/main/java/com/example/calendar/ui/components/CalendarView.kt:54-58 | the layout of the shown month: offset 0..6 and that month's length |
| CalendarView.CellAt | app/src/main/java/com/example/calendar/ui/components/CalendarView.kt:66-78 | position k is a day exactly when k - offset + 1 is in 1..daysInMonth, and then holds that day of the month |
| CalendarView.Grid | app/src/main/java/com/example/calendar/ui/components/CalendarView.kt:60-86 | always 6 rows of 7 cells, row i column j holding the month layout's cell i*7+j; every day shown is in the current month; highlighted iff it is the selected date, bold iff it is today |
| CalendarView.GridShowsEveryDayOnce | app/src/main/java/com/example/calendar/ui/components/CalendarView.kt:54-71 | read row by row, the filled cells are exactly the days 1..daysInMonth, each once, in order |
| CalendarView.CellsUnderTheirWeekday | app/src/main/java/com/example/calendar/ui/components/CalendarView.kt:54-71 | every day sits in the column of its weekday in the locale's week |
| CalendarView.AtMostOneSelected | app/src/main/java/com/example/calendar/ui/components/CalendarView.kt:78 | at most one cell is highlighted |
| CalendarView.SelectedDayHighlighted | app/src/main/java/com/example/calendar/ui/screens/CalendarScreen.kt:66-68 | a grid drawn on the selected date's own month highlights exactly that date's cell |
| CalendarView.Click | app/src/main/java/com/example/calendar/ui/components/CalendarView.kt:74 | a blank cell emits nothing; a day cell emits its own date |
| CalendarView.PreviousMonth | app/src/main/java/com/example/calendar/ui/components/CalendarView.kt:40 | the back arrow emits the shown date one month back, failing only before the first supported month; the day is kept if that month has it, otherwise it is the month's last day |
| CalendarView.NextMonth | app/src/main/java/com/example/calendar/ui/components/CalendarView.kt:48 | the forward arrow emits the shown date one month on, failing only past the last supported month; the day is kept if that month has it, otherwise it is the month's last day |
| TaskFormDialog.Open | app/src/main/java/com/example/calendar/ui/components/TaskFormDialog.kt:20-22 | an edit starts from the task's own fields; a create starts empty, open and due on the given date |
| TaskFormDialog.Step | app/src/main/java/com/example/calendar/ui/components/TaskFormDialog.kt:29-53 | typing sets the description, the box sets the flag, and the date button changes nothing |
| TaskFormDialog.Run | app/src/main/java/com/example/calendar/ui/components/TaskFormDialog.kt:29-53 | no sequence of events changes the due date or the edited task; without typing the description is kept |
| TaskFormDialog.DueDateNeverChanges | app/src/main/java/com/example/calendar/ui/components/TaskFormDialog.kt:51 | a confirmed task is due on the date the form opened with |
| TaskFormDialog.Confirm | app/src/main/java/com/example/calendar/ui/components/TaskFormDialog.kt:58-66 | nothing is confirmed exactly when the description is blank; an edit keeps the task's id; a create has id 0; the form's fields are carried over |
| TaskFormDialog.UntouchedEditIsIdentity | app/src/main/java/com/example/calendar/ui/components/TaskFormDialog.kt:60-63 | confirming an edit without changes gives back the task |
| TaskFormDialog.UntypedCreateIsRejected | app/src/main/java/com/example/calendar/ui/components/TaskFormDialog.kt:59 | a create form confirmed before any typing does nothing |
| TaskFormDialog.WhitespaceIsRejected | app/src/main/java/com/example/calendar/ui/components/TaskFormDialog.kt:59 | spaces, tabs, line feeds and no-break spaces alone are refused |
| TaskFormDialog.VisibleTextIsAccepted | app/src/main/java/com/example/calendar/ui/components/TaskFormDialog.kt:59 | a description with a letter or digit is accepted |
| Screens.OpenCreate | app/src/main/java/com/example/calendar/ui/screens/CalendarScreen.kt:52-55 | the form opens with no task to edit; the delete dialog is untouched |
| Screens.OpenEdit | app/src/main/java/com/example/calendar/ui/screens/CalendarScreen.kt:110-113 | the form opens on the given task |
| Screens.OpenDelete | app/src/main/java/com/example/calendar/ui/screens/CalendarScreen.kt:106-109 | the delete dialog opens with the given task pending |
| Screens.FormOf | app/src/main/java/com/example/calendar/ui/screens/CalendarScreen.kt:219-222 | a create form defaults to the screen's date |
| Screens.ConfirmForm | app/src/main/java/com/example/calendar/ui/screens/CalendarScreen.kt:224-231 | id 0 adds an open task with the description and date at the head of the listing; another id updates that row only; the form closes; `DailyTasksScreen.kt` dispatches the same way |
| Screens.DismissForm | app/src/main/java/com/example/calendar/ui/screens/CalendarScreen.kt:223 | the form closes and nothing else changes |
| Screens.ConfirmDelete | app/src/main/java/com/example/calendar/ui/screens/CalendarScreen.kt:239-243 | the pending task's row is deleted and no other; then nothing is pending and the dialog is closed; the day screen does the same |
| Screens.DismissDelete | app/src/main/java/com/example/calendar/ui/screens/CalendarScreen.kt:244-247 | nothing is pending and the dialog is closed, with the table untouched; the day screen does the same |
| Screens.DeleteConfirmAndDismissAgreeOnDialogs | app/src/main/java/com/example/calendar/ui/screens/CalendarScreen.kt:239-247 | confirm and dismiss leave the same dialog state; they differ on the table exactly when a stored task is pending |
| Screens.CreateThroughForm | app/src/main/java/com/example/calendar/ui/screens/CalendarScreen.kt:224-226 | a task created through the form is stored open and due on the screen's date, at the head of the listing |
| Screens.EditThroughForm | app/src/main/java/com/example/calendar/ui/screens/CalendarScreen.kt:227-228 | an edited stored task is saved with the form's description and box and its own due date |
| CalendarScreen.PreviewOf | app/src/main/java/com/example/calendar/ui/screens/CalendarScreen.kt:94-171 | the empty message exactly for no tasks; the preview is a prefix of the day's tasks, three at most in the list modes and all of them as cards; the button appears exactly when tasks are hidden |
| CalendarScreen.ShowAllWhenMoreThanThree | app/src/main/java/com/example/calendar/ui/screens/CalendarScreen.kt:117-124 | the see-all button appears exactly in the list modes with more than three tasks |
| CalendarScreen.MonthGrid | app/src/main/java/com/example/calendar/ui/screens/CalendarScreen.kt:66-68 | the grid shows the selected date's month with the selected date's cell highlighted |
| CalendarScreen.ClickCell | app/src/main/java/com/example/calendar/ui/screens/CalendarScreen.kt:69 | a day cell selects its date; a blank cell changes nothing |
| CalendarScreen.ClickedCellBecomesSelected | app/src/main/java/com/example/calendar/ui/screens/CalendarScreen.kt:66-69 | after a click on a day, the same cell of the redrawn grid is the highlighted one |
| CalendarScreen.PreviousMonthArrow | app/src/main/java/com/example/calendar/ui/screens/CalendarScreen.kt:70 | the back arrow selects the date one month earlier, day clamped to that month, failing only before the first supported month; the table is untouched |
| CalendarScreen.NextMonthArrow | app/src/main/java/com/example/calendar/ui/screens/CalendarScreen.kt:70 | the forward arrow selects the date one month later, day clamped to that month, failing only past the last supported month; the table is untouched |
| CalendarScreen.ArrowsAreMonthSteps | app/src/main/java/com/example/calendar/ui/screens/CalendarScreen.kt:70 | the grid's arrows do exactly what goToNextMonth and goToPreviousMonth do |
| CalendarScreen.ShowAllRoute | app/src/main/java/com/example/calendar/ui/screens/CalendarScreen.kt:119 | the route argument turns back into the selected date |
| DailyTasksScreen.ScreenDate | app/src/main/java/com/example/calendar/ui/screens/DailyTasksScreen.kt:29 | the screen has a date exactly for a supported epoch day, and it is that day |
| DailyTasksScreen.TasksForThisDay | app/src/main/java/com/example/calendar/ui/screens/DailyTasksScreen.kt:40-44 | exactly the tasks due on the date, each as many times as the full list holds it, in the full list's order |
| DailyTasksScreen.DayListIsDateQuery | app/src/main/java/com/example/calendar/ui/screens/DailyTasksScreen.kt:40-44 | once settled, the day list equals the table's date query |
| DailyTasksScreen.ShowAllOpensSelectedDay | app/src/main/java/com/example/calendar/ui/screens/DailyTasksScreen.kt:29-44 | see-all opens the selected day, whose list is the calendar screen's day list and begins with the preview |
| DailyTasksScreen.CreatedTaskHeadsDayList | app/src/main/java/com/example/calendar/ui/screens/DailyTasksScreen.kt:107-118 | a task created on the day screen is due on that day and heads its list, ahead of the previous list |

## Left out

- `database/AppDatabase.kt` is not part of this model. It is the Room builder and a singleton guarded by `synchronized`; the concurrency is library plumbing.
- `utils/NotificationUtils.kt` is not part of this model. It only registers a notification channel, which is a system call.
- `MainActivity.kt` is not part of this model. It holds navigation wiring and parses the `dailyTasks/{epochDay}` route string; the model passes the epoch day as an integer.
- `ui/components/TaskItem.kt` is not part of this model. It renders a task, and its callbacks forward the task unchanged.
- The `TaskViewModelFactory` (TaskViewModel.kt:90-98) is left out. It is reflection-based construction with no logic of its own.
- Coroutines, `Flow`, `stateIn`, `WhileSubscribed(5000)` and the timing of `flatMapLatest` are left out. Each intent applies its table operation at once, in call order. `TaskViewModel.Settle` stands for the flows having caught up.
- Compose layout, colours and sizes are left out, and so is display text. This includes the `MMM yyyy` month header, the `dd/MM/yyyy` titles and dialog labels.
- `Locale.getDefault()` is left out: the locale's first day of the week is a parameter.
- `LocalDate.now()` is left out: today is a parameter.
- The SQL engine and Room's code generation are left out. The DAO is modelled by its declared semantics over a map.
- `TaskDao.InsertedId`: ids are unbounded integers. Kotlin's 32-bit `Int` and SQLite's failure when the AUTOINCREMENT counter reaches its maximum are not modelled.
- The view mode: `CalendarScreen.kt` reads `currentViewModel` and calls `setViewMode`, but `TaskViewModel.kt` defines neither. The mode is an input to `CalendarScreen.PreviewOf`. Its `GRID` constant is named `Cards` here to keep it apart from the month grid.
- `Converters.FromTimestamp`: a failed parse is reported as one of two kinds, malformed text or an impossible value. The message and error index of `DateTimeParseException` are not modelled.
- `EpochDay.OfEpochDay`: the library's estimate-and-correct arithmetic is replaced by a 400-year-cycle search. Its result is proved to be the date with the given epoch day, so it is the same function.

=== FILE: calendar.dfy ===
/**
 * The proleptic Gregorian calendar as `java.time.LocalDate` implements it:
 * valid dates, month lengths, day counts and month arithmetic.
 */
module Calendar {
  import opened Wrappers

  /** The year range of `LocalDate` (`Year.MIN_VALUE` .. `Year.MAX_VALUE`). */
  const MinYear: int := -999_999_999
  const MaxYear: int := 999_999_999

  /** Days in one 400-year Gregorian cycle. */
  const DaysPerCycle: int := 146097

  /** A year-month-day triple; not every triple names a real day. */
  datatype LocalDate = LocalDate(year: int, month: int, day: int)

  /** A thrown `DateTimeException`: the result leaves the supported year range. */
  datatype DateError = YearOutOfRange

  predicate IsLeapYear(y: int)
  {
    y % 4 == 0 && (y % 100 != 0 || y % 400 == 0)
  }

  function LengthOfMonth(y: int, m: int): (n: int)
    requires 1 <= m <= 12
    ensures 28 <= n <= 31
    ensures n == 29 <==> m == 2 && IsLeapYear(y)
  {
    if m == 2 then (if IsLeapYear(y) then 29 else 28)
    else if m == 4 || m == 6 || m == 9 || m == 11 then 30
    else 31
  }

  function LengthOfYear(y: int): int
  {
    if IsLeapYear(y) then 366 else 365
  }

  predicate IsValid(d: LocalDate)
  {
    MinYear <= d.year <= MaxYear && 1 <= d.month <= 12 && 1 <= d.day <= LengthOfMonth(d.year, d.month)
  }

  /** A calendar date with no time component: every `Date` exists in the calendar. */
  type Date = d: LocalDate | IsValid(d) witness LocalDate(1970, 1, 1)

  /**
   * Days from 0000-01-01 to y-01-01. Dafny's `/` rounds toward negative
   * infinity for a positive divisor, so one formula covers negative years.
   */
  function DaysBeforeYear(y: int): int
  {
    365 * y + (y + 3) / 4 - (y + 99) / 100 + (y + 399) / 400
  }

  /** Days from January 1st to the first day of month m of year y. */
  function DaysBeforeMonth(y: int, m: int): (n: int)
    requires 1 <= m <= 12
    ensures 0 <= n <= 335
  {
    var leap := if m > 2 && IsLeapYear(y) then 1 else 0;
    leap + (match m
      case 1 => 0    case 2 => 31   case 3 => 59   case 4 => 90
      case 5 => 120  case 6 => 151  case 7 => 181  case 8 => 212
      case 9 => 243  case 10 => 273 case 11 => 304 case _ => 334)
  }

  /** Consecutive months are adjacent, and December ends the year. */
  lemma MonthsTileTheYear(y: int, m: int)
    requires 1 <= m <= 12
    ensures m < 12 ==> DaysBeforeMonth(y, m + 1) == DaysBeforeMonth(y, m) + LengthOfMonth(y, m)
    ensures m == 12 ==> DaysBeforeMonth(y, m) + LengthOfMonth(y, m) == LengthOfYear(y)
  {
  }

  /** Floor division by 4, 100 or 400 steps up exactly at the multiples. */
  lemma FloorDivStep(x: int, k: int)
    requires k == 4 || k == 100 || k == 400
    ensures (x + 1) / k == x / k + (if (x + 1) % k == 0 then 1 else 0)
    ensures (x + 1 + k) % k == (x + 1) % k
  {
    if k == 4 {
      DivStepBy4(x);
    } else if k == 100 {
      DivStepBy100(x);
    } else {
      DivStepBy400(x);
    }
  }

  lemma DivStepBy4(x: int)
    ensures (x + 1) / 4 == x / 4 + (if (x + 1) % 4 == 0 then 1 else 0)
    ensures (x + 1 + 4) % 4 == (x + 1) % 4
  {
  }

  lemma DivStepBy100(x: int)
    ensures (x + 1) / 100 == x / 100 + (if (x + 1) % 100 == 0 then 1 else 0)
    ensures (x + 1 + 100) % 100 == (x + 1) % 100
  {
  }

  lemma DivStepBy400(x: int)
    ensures (x + 1) / 400 == x / 400 + (if (x + 1) % 400 == 0 then 1 else 0)
    ensures (x + 1 + 400) % 400 == (x + 1) % 400
  {
  }

  /** Floor division by 4, 100 or 400 absorbs whole 400-year shifts. */
  lemma FloorDivShift(x: int, k: int, q: int)
    requires k == 4 || k == 100 || k == 400
    ensures (x + 400 * q) / k == x / k + (400 / k) * q
  {
  }

  /** Each year contributes exactly its own length to the running day count. */
  lemma YearsTileTheLine(y: int)
    ensures DaysBeforeYear(y + 1) == DaysBeforeYear(y) + LengthOfYear(y)
  {
    var d4 := if y % 4 == 0 then 1 else 0;
    var d100 := if y % 100 == 0 then 1 else 0;
    var d400 := if y % 400 == 0 then 1 else 0;
    FloorDivStep(y + 3, 4);
    FloorDivStep(y + 99, 100);
    FloorDivStep(y + 399, 400);
    ModPeriod(y, 4);
    ModPeriod(y, 100);
    ModPeriod(y, 400);
    assert (y + 4) / 4 == (y + 3) / 4 + d4;
    assert (y + 100) / 100 == (y + 99) / 100 + d100;
    assert (y + 400) / 400 == (y + 399) / 400 + d400;
    DivisibilityNests(y);
    assert LengthOfYear(y) == 365 + d4 - d100 + d400;
  }

  /** Adding the divisor does not change the remainder. */
  lemma ModPeriod(y: int, k: int)
    requires k == 4 || k == 100 || k == 400
    ensures (y + k) % k == y % k
  {
  }

  /** A multiple of 400 is a multiple of 100, and a multiple of 100 a multiple of 4. */
  lemma DivisibilityNests(y: int)
    ensures y % 400 == 0 ==> y % 100 == 0
    ensures y % 100 == 0 ==> y % 4 == 0
  {
    MultiplesNest(y / 400);
    MultiplesNest(y / 100);
    assert y == 400 * (y / 400) + y % 400;
    assert y == 100 * (y / 100) + y % 100;
  }

  lemma MultiplesNest(q: int)
    ensures (400 * q) % 100 == 0 && (100 * q) % 4 == 0
  {
  }

  /** Shifting by q whole 400-year cycles shifts the day count by q cycles. */
  lemma CyclesRepeat(y: int, q: int)
    ensures DaysBeforeYear(y + 400 * q) == DaysBeforeYear(y) + DaysPerCycle * q
  {
    FloorDivShift(y + 3, 4, q);
    FloorDivShift(y + 99, 100, q);
    FloorDivShift(y + 399, 400, q);
  }

  /** The day count grows strictly with the year. */
  lemma DaysBeforeYearIncreasing(a: int, b: int)
    requires a < b
    ensures DaysBeforeYear(a) < DaysBeforeYear(b)
  {
  }

  /** A month's days lie inside its year, and later months start later. */
  lemma MonthsIncreasing(y: int, m1: int, m2: int)
    requires 1 <= m1 <= 12 && 1 <= m2 <= 12
    ensures DaysBeforeMonth(y, m1) + LengthOfMonth(y, m1) <= LengthOfYear(y)
    ensures m1 < m2 ==> DaysBeforeMonth(y, m1) + LengthOfMonth(y, m1) <= DaysBeforeMonth(y, m2)
  {
  }

  /** Months counted from the start of year 0: the axis `plusMonths` moves along. */
  function MonthIndex(d: LocalDate): int
  {
    d.year * 12 + d.month - 1
  }

  /** The month index identifies the year and the month. */
  lemma MonthIndexInjective(a: LocalDate, b: LocalDate)
    requires 1 <= a.month <= 12 && 1 <= b.month <= 12
    requires MonthIndex(a) == MonthIndex(b)
    ensures a.year == b.year && a.month == b.month
  {
  }

  function Min(a: int, b: int): int
  {
    if a <= b then a else b
  }

  /** `LocalDate.withDayOfMonth`: the same month with another day. */
  function WithDayOfMonth(d: Date, dom: int): (r: Date)
    requires 1 <= dom <= LengthOfMonth(d.year, d.month)
    ensures MonthIndex(r) == MonthIndex(d) && r.day == dom
  {
    LocalDate(d.year, d.month, dom)
  }

  /**
   * A month step keeps the day of the month when the target month has it,
   * and otherwise lands on the target month's last day.
   */
  predicate DayClamped(from: Date, to: Date)
  {
    to.day == if from.day <= LengthOfMonth(to.year, to.month) then from.day else LengthOfMonth(to.year, to.month)
  }

  /**
   * `LocalDate.plusMonths`: move n months along the month axis, then clamp the
   * day to the target month's length; fails when the target year leaves the
   * supported range.
   */
  function PlusMonths(d: Date, n: int): (r: Result<Date, DateError>)
    ensures r.Success? <==> MinYear * 12 <= MonthIndex(d) + n <= MaxYear * 12 + 11
    ensures r.Success? ==> MonthIndex(r.value) == MonthIndex(d) + n
    ensures r.Success? ==> r.value.day <= d.day
    ensures r.Success? && r.value.day < d.day ==> r.value.day == LengthOfMonth(r.value.year, r.value.month)
    ensures r.Success? ==> DayClamped(d, r.value)
  {
    var target := MonthIndex(d) + n;
    var year := target / 12;
    var month := target % 12 + 1;
    if year < MinYear || year > MaxYear then Failure(YearOutOfRange)
    else Success(LocalDate(year, month, Min(d.day, LengthOfMonth(year, month))))
  }

  /** `LocalDate.minusMonths`, which the library defines as adding -n months. */
  function MinusMonths(d: Date, n: int): (r: Result<Date, DateError>)
    ensures r.Success? <==> MinYear * 12 <= MonthIndex(d) - n <= MaxYear * 12 + 11
    ensures r.Success? ==> MonthIndex(r.value) == MonthIndex(d) - n
    ensures r.Success? ==> r.value.day <= d.day
    ensures r.Success? && r.value.day < d.day ==> r.value.day == LengthOfMonth(r.value.year, r.value.month)
    ensures r.Success? ==> DayClamped(d, r.value)
  {
    PlusMonths(d, -n)
  }

  /**
   * Going n months forward and n months back restores the date exactly when
   * the day did not have to be clamped on the way out.
   */
  lemma PlusMonthsUndone(d: Date, n: int)
    requires PlusMonths(d, n).Success?
    ensures var e := PlusMonths(d, n).value;
      PlusMonths(e, -n) == Success(d) <==> d.day <= LengthOfMonth(e.year, e.month)
  {
    var e := PlusMonths(d, n).value;
    var back := PlusMonths(e, -n);
    assert back.Success?;
    MonthIndexInjective(back.value, d);
  }
}

=== FILE: calendar_screen.dfy ===
/**
 * `CalendarScreen`: the month grid over the selected date, and a preview of
 * the selected day's tasks in the chosen view mode.
 */
module CalendarScreen {
  import opened Wrappers
  import opened Calendar
  import opened EpochDay
  import opened Tasks
  import opened TaskViewModel
  import opened Screens
  import CalendarView

  /** How many of the day's tasks the list modes preview. */
  const PreviewLimit: nat := 3

  /** What the task area shows: the empty message, the previewed tasks, the "see all" button. */
  datatype Preview = Preview(emptyMessage: bool, shown: seq<Task>, showAllButton: bool)

  /**
   * The task area for the day's tasks in `mode`: the empty message alone
   * when there are none; the list modes show the first three and offer the
   * button when there are more; the card row shows them all.
   */
  function PreviewOf(tasks: seq<Task>, mode: ViewMode): (p: Preview)
    ensures p.emptyMessage <==> tasks == []
    ensures p.emptyMessage ==> p.shown == [] && !p.showAllButton
    ensures p.shown <= tasks
    ensures mode == Cards ==> p.shown == tasks
    ensures mode != Cards ==> |p.shown| == if |tasks| < PreviewLimit then |tasks| else PreviewLimit
    ensures p.showAllButton <==> |p.shown| < |tasks|
  {
    if tasks == [] then Preview(true, [], false)
    else match mode
      case Cards => Preview(false, tasks, false)
      case _ =>
        var n := if |tasks| < PreviewLimit then |tasks| else PreviewLimit;
        Preview(false, tasks[..n], |tasks| > PreviewLimit)
  }

  /** In the list modes the button appears exactly when there are more than three tasks. */
  lemma ShowAllWhenMoreThanThree(tasks: seq<Task>, mode: ViewMode)
    ensures PreviewOf(tasks, mode).showAllButton <==> mode != Cards && |tasks| > PreviewLimit
  {
  }

  /** The month grid the screen shows: the selected date's month, with that date highlighted. */
  function MonthGrid(vm: ViewModel, today: Date, weekStart: int): (g: seq<seq<CalendarView.Cell>>)
    requires 1 <= weekStart <= 7
    ensures |g| == CalendarView.Rows && forall i :: 0 <= i < |g| ==> |g[i]| == CalendarView.Columns
    ensures var k := CalendarView.StartOffset(LocalizedDayOfWeek(WithDayOfMonth(vm.selectedDate, 1), weekStart)) + vm.selectedDate.day - 1;
      0 <= k < CalendarView.Rows * CalendarView.Columns
      && g[k / CalendarView.Columns][k % CalendarView.Columns].Day?
      && g[k / CalendarView.Columns][k % CalendarView.Columns].date == vm.selectedDate
      && g[k / CalendarView.Columns][k % CalendarView.Columns].isSelected
  {
    CalendarView.SelectedDayHighlighted(vm.selectedDate, today, weekStart);
    CalendarView.Grid(vm.selectedDate, vm.selectedDate, today, weekStart)
  }

  /** A click on a grid cell: a day cell selects its date; a blank cell does nothing. */
  function ClickCell(vm: ViewModel, cell: CalendarView.Cell): (r: ViewModel)
    ensures r.store == vm.store
    ensures cell.Empty? ==> r == vm
    ensures cell.Day? ==> r.selectedDate == cell.date
  {
    match CalendarView.Click(cell)
    case Some(d) => SelectDate(vm, d)
    case None => vm
  }

  /** After a click on a day of the grid, the same cell of the redrawn grid is the highlighted one. */
  lemma ClickedCellBecomesSelected(vm: ViewModel, today: Date, weekStart: int, i: int, j: int)
    requires 1 <= weekStart <= 7
    requires 0 <= i < CalendarView.Rows && 0 <= j < CalendarView.Columns
    requires MonthGrid(vm, today, weekStart)[i][j].Day?
    ensures var r := ClickCell(vm, MonthGrid(vm, today, weekStart)[i][j]);
      MonthGrid(r, today, weekStart)[i][j].Day? && MonthGrid(r, today, weekStart)[i][j].isSelected
  {
    var cell := MonthGrid(vm, today, weekStart)[i][j];
    var r := ClickCell(vm, cell);
    MonthIndexInjective(cell.date, vm.selectedDate);
    assert WithDayOfMonth(r.selectedDate, 1) == WithDayOfMonth(vm.selectedDate, 1);
    var l := CalendarView.LayoutOf(vm.selectedDate, weekStart);
    assert CalendarView.LayoutOf(r.selectedDate, weekStart) == l.(month := r.selectedDate);
    assert cell == CalendarView.CellAt(l, vm.selectedDate, today, i * CalendarView.Columns + j);
    assert MonthGrid(r, today, weekStart)[i][j]
      == CalendarView.CellAt(l.(month := r.selectedDate), r.selectedDate, today, i * CalendarView.Columns + j);
  }

  /** The back arrow: `onMonthChanged` selects the date one month back. */
  function PreviousMonthArrow(vm: ViewModel): (r: Result<ViewModel, DateError>)
    ensures r.Success? <==> MonthIndex(LocalDate(MinYear, 1, 1)) <= MonthIndex(vm.selectedDate) - 1
    ensures r.Success? ==> r.value.store == vm.store
    ensures r.Success? ==> MonthIndex(r.value.selectedDate) + 1 == MonthIndex(vm.selectedDate)
    ensures r.Success? ==> DayClamped(vm.selectedDate, r.value.selectedDate)
  {
    match CalendarView.PreviousMonth(vm.selectedDate)
    case Success(d) => Success(SelectDate(vm, d))
    case Failure(e) => Failure(e)
  }

  /** The forward arrow: `onMonthChanged` selects the date one month on. */
  function NextMonthArrow(vm: ViewModel): (r: Result<ViewModel, DateError>)
    ensures r.Success? <==> MonthIndex(vm.selectedDate) + 1 <= MonthIndex(LocalDate(MaxYear, 12, 1))
    ensures r.Success? ==> r.value.store == vm.store
    ensures r.Success? ==> MonthIndex(r.value.selectedDate) == MonthIndex(vm.selectedDate) + 1
    ensures r.Success? ==> DayClamped(vm.selectedDate, r.value.selectedDate)
  {
    match CalendarView.NextMonth(vm.selectedDate)
    case Success(d) => Success(SelectDate(vm, d))
    case Failure(e) => Failure(e)
  }

  /** The grid's arrows do exactly what the view-model's month steps do. */
  lemma ArrowsAreMonthSteps(vm: ViewModel)
    ensures NextMonthArrow(vm) == GoToNextMonth(vm)
    ensures PreviousMonthArrow(vm) == GoToPreviousMonth(vm)
  {
  }

  /** The "see all" button's route argument: the selected date's epoch day. */
  function ShowAllRoute(vm: ViewModel): (epochDay: int)
    ensures OfEpochDay(epochDay) == Success(vm.selectedDate)
  {
    EpochDayRoundTrip(vm.selectedDate);
    ToEpochDay(vm.selectedDate)
  }
}

=== FILE: calendar_view.dfy ===
/**
 * `CalendarView`: the month grid. Six rows of seven cells; cell (i, j) shows
 * day `i*7 + j - startOffset + 1` of the month when that day exists.
 */
module CalendarView {
  import opened Wrappers
  import opened Calendar
  import opened EpochDay

  const Rows: int := 6
  const Columns: int := 7

  /** A grid cell: blank, or a day with its highlight (selected) and bold (today) flags. */
  datatype Cell = Empty | Day(date: Date, isSelected: bool, isToday: bool)

  /** Blank cells before day 1, from the 1st's position (1..7) in the locale's week. */
  function StartOffset(firstDayOfWeek: int): (offset: int)
    requires 1 <= firstDayOfWeek <= 7
    ensures 0 <= offset <= 6
    ensures offset + 1 == firstDayOfWeek
  {
    (firstDayOfWeek - 1 + 7) % 7
  }

  /** What the grid needs to know about the month on show. */
  datatype Layout = Layout(month: Date, offset: int, daysInMonth: int)

  /**
   * The layout of `currentMonth`'s month. `weekStart` is the ISO number of
   * the locale's first day of the week (`Locale.getDefault()` is a parameter).
   */
  function LayoutOf(currentMonth: Date, weekStart: int): (l: Layout)
    requires 1 <= weekStart <= 7
    ensures 0 <= l.offset <= 6 && 28 <= l.daysInMonth <= 31
    ensures l.daysInMonth == LengthOfMonth(l.month.year, l.month.month)
    ensures MonthIndex(l.month) == MonthIndex(currentMonth)
  {
    var first := WithDayOfMonth(currentMonth, 1);
    Layout(currentMonth, StartOffset(LocalizedDayOfWeek(first, weekStart)), LengthOfMonth(currentMonth.year, currentMonth.month))
  }

  predicate ValidLayout(l: Layout)
  {
    0 <= l.offset <= 6 && l.daysInMonth == LengthOfMonth(l.month.year, l.month.month)
  }

  /** The cell at row-major position k = i*7 + j. */
  function CellAt(l: Layout, selectedDate: Date, today: Date, k: int): (c: Cell)
    requires ValidLayout(l)
    ensures c.Day? <==> l.offset <= k < l.offset + l.daysInMonth
    ensures c.Day? ==> (MonthIndex(c.date) == MonthIndex(l.month) && c.date.day == k - l.offset + 1)
    ensures c.Day? ==> (c.isSelected <==> c.date == selectedDate) && (c.isToday <==> c.date == today)
  {
    var dayOfMonth := k - l.offset + 1;
    if 1 <= dayOfMonth <= l.daysInMonth then
      var date := WithDayOfMonth(l.month, dayOfMonth);
      Day(date, date == selectedDate, date == today)
    else Empty
  }

  /** The 6 x 7 grid `CalendarView` draws; `today` stands for `LocalDate.now()`. */
  function Grid(currentMonth: Date, selectedDate: Date, today: Date, weekStart: int): (g: seq<seq<Cell>>)
    requires 1 <= weekStart <= 7
    ensures |g| == Rows && forall i :: 0 <= i < |g| ==> |g[i]| == Columns
    ensures forall i, j :: 0 <= i < Rows && 0 <= j < Columns ==>
      g[i][j] == CellAt(LayoutOf(currentMonth, weekStart), selectedDate, today, i * Columns + j)
    ensures forall i, j :: 0 <= i < Rows && 0 <= j < Columns && g[i][j].Day? ==>
      MonthIndex(g[i][j].date) == MonthIndex(currentMonth)
      && (g[i][j].isSelected <==> g[i][j].date == selectedDate)
      && (g[i][j].isToday <==> g[i][j].date == today)
  {
    var l := LayoutOf(currentMonth, weekStart);
    var g := seq(Rows, i => seq(Columns, j => CellAt(l, selectedDate, today, i * Columns + j)));
    assert forall i, j :: 0 <= i < Rows && 0 <= j < Columns ==> g[i][j] == CellAt(l, selectedDate, today, i * Columns + j);
    g
  }

  /** The cells read row by row. */
  function Flatten(g: seq<seq<Cell>>): (cells: seq<Cell>)
  {
    if g == [] then [] else Flatten(g[..|g| - 1]) + g[|g| - 1]
  }

  /** The day numbers of the filled cells, in order. */
  function FilledDays(cells: seq<Cell>): (days: seq<int>)
    ensures |days| <= |cells|
  {
    if cells == [] then []
    else
      var last := cells[|cells| - 1];
      FilledDays(cells[..|cells| - 1]) + (if last.Day? then [last.date.day] else [])
  }

  /** The days 1..n in increasing order. */
  function OneTo(n: nat): seq<int>
  {
    seq(n, k => k + 1)
  }

  /** The first n rows, read row by row, are the cells at positions 0 .. 7n-1. */
  lemma {:induction false} FlattenRows(g: seq<seq<Cell>>, l: Layout, selectedDate: Date, today: Date, n: nat)
    requires ValidLayout(l) && n <= |g|
    requires forall i :: 0 <= i < |g| ==> g[i] == seq(Columns, j => CellAt(l, selectedDate, today, i * Columns + j))
    ensures Flatten(g[..n]) == seq(n * Columns, k => CellAt(l, selectedDate, today, k))
  {
    if n > 0 {
      FlattenRows(g, l, selectedDate, today, n - 1);
      assert g[..n][..n - 1] == g[..n - 1];
    }
  }

  /** Reading the first n cells shows the days 1 .. n - offset, capped at the month's length. */
  lemma {:induction false} FilledPrefix(l: Layout, selectedDate: Date, today: Date, n: nat)
    requires ValidLayout(l)
    ensures var shown := if n <= l.offset then 0 else if n - l.offset >= l.daysInMonth then l.daysInMonth else n - l.offset;
      FilledDays(seq(n, k => CellAt(l, selectedDate, today, k))) == OneTo(shown)
  {
    if n > 0 {
      var cells := seq(n, k => CellAt(l, selectedDate, today, k));
      assert cells[..n - 1] == seq(n - 1, k => CellAt(l, selectedDate, today, k));
      FilledPrefix(l, selectedDate, today, n - 1);
    }
  }

  /**
   * Read row-major, the filled cells show exactly the days 1..daysInMonth,
   * each once and in order: an offset of at most 6 and at most 31 days fit in 42 cells.
   */
  lemma GridShowsEveryDayOnce(currentMonth: Date, selectedDate: Date, today: Date, weekStart: int)
    requires 1 <= weekStart <= 7
    ensures FilledDays(Flatten(Grid(currentMonth, selectedDate, today, weekStart)))
      == OneTo(LengthOfMonth(currentMonth.year, currentMonth.month))
  {
    var g := Grid(currentMonth, selectedDate, today, weekStart);
    var l := LayoutOf(currentMonth, weekStart);
    FlattenRows(g, l, selectedDate, today, Rows);
    assert g[..Rows] == g;
    FilledPrefix(l, selectedDate, today, Rows * Columns);
  }

  /** At most one cell is highlighted. */
  lemma AtMostOneSelected(currentMonth: Date, selectedDate: Date, today: Date, weekStart: int,
                          i1: int, j1: int, i2: int, j2: int)
    requires 1 <= weekStart <= 7
    requires 0 <= i1 < Rows && 0 <= j1 < Columns && 0 <= i2 < Rows && 0 <= j2 < Columns
    requires var g := Grid(currentMonth, selectedDate, today, weekStart);
      g[i1][j1].Day? && g[i1][j1].isSelected && g[i2][j2].Day? && g[i2][j2].isSelected
    ensures i1 == i2 && j1 == j2
  {
    var g := Grid(currentMonth, selectedDate, today, weekStart);
    var l := LayoutOf(currentMonth, weekStart);
    assert g[i1][j1] == CellAt(l, selectedDate, today, i1 * Columns + j1);
    assert g[i2][j2] == CellAt(l, selectedDate, today, i2 * Columns + j2);
  }

  /**
   * On the calendar screen the grid shows the selected date's own month, so
   * exactly one cell is highlighted: the selected day's cell.
   */
  lemma SelectedDayHighlighted(selectedDate: Date, today: Date, weekStart: int)
    requires 1 <= weekStart <= 7
    ensures var g := Grid(selectedDate, selectedDate, today, weekStart);
      var k := StartOffset(LocalizedDayOfWeek(WithDayOfMonth(selectedDate, 1), weekStart)) + selectedDate.day - 1;
      0 <= k < Rows * Columns && g[k / Columns][k % Columns] == Day(selectedDate, true, selectedDate == today)
  {
    var g := Grid(selectedDate, selectedDate, today, weekStart);
    var l := LayoutOf(selectedDate, weekStart);
    var k := l.offset + selectedDate.day - 1;
    assert k == k / Columns * Columns + k % Columns;
    assert g[k / Columns][k % Columns] == CellAt(l, selectedDate, today, k);
    assert WithDayOfMonth(l.month, k - l.offset + 1) == selectedDate;
  }

  /** Days of one month are consecutive epoch days. */
  lemma DaysOfMonthConsecutive(d: Date, dom: int)
    requires 1 <= dom <= LengthOfMonth(d.year, d.month)
    ensures ToEpochDay(WithDayOfMonth(d, dom)) == ToEpochDay(WithDayOfMonth(d, 1)) + dom - 1
  {
  }

  /** A date k days after another is k places further along the week. */
  lemma WeekdayAdvance(a: Date, b: Date, weekStart: int, k: int)
    requires 1 <= weekStart <= 7
    requires ToEpochDay(b) == ToEpochDay(a) + k
    ensures LocalizedDayOfWeek(b, weekStart) - 1 == (LocalizedDayOfWeek(a, weekStart) - 1 + k) % 7
  {
    var x := ToEpochDay(a) + 3;
    assert LocalizedDayOfWeek(b, weekStart) - 1 == ((x + k) % 7 + 1 - weekStart) % 7;
    assert LocalizedDayOfWeek(a, weekStart) - 1 == (x % 7 + 1 - weekStart) % 7;
    WeekdayShift(x, weekStart, k);
  }

  /** The weekday arithmetic behind `WeekdayAdvance`, on plain integers. */
  lemma WeekdayShift(x: int, f: int, k: int)
    ensures ((x + k) % 7 + 1 - f) % 7 == ((x % 7 + 1 - f) % 7 + k) % 7
  {
    ModSum(x + k, 1 - f);
    ModSum(x % 7 + 1 - f, k);
    ModSum(x, 1 - f + k);
  }

  /** Every day sits in the column of its weekday in the locale's week. */
  lemma CellsUnderTheirWeekday(currentMonth: Date, selectedDate: Date, today: Date, weekStart: int, i: int, j: int)
    requires 1 <= weekStart <= 7 && 0 <= i < Rows && 0 <= j < Columns
    requires Grid(currentMonth, selectedDate, today, weekStart)[i][j].Day?
    ensures LocalizedDayOfWeek(Grid(currentMonth, selectedDate, today, weekStart)[i][j].date, weekStart) == j + 1
  {
    var l := LayoutOf(currentMonth, weekStart);
    var k := i * Columns + j;
    assert Grid(currentMonth, selectedDate, today, weekStart)[i][j] == CellAt(l, selectedDate, today, k);
    CellWeekday(currentMonth, weekStart, l, selectedDate, today, k);
    RowMajor(i, j);
  }

  /** Position i*7 + j lies in row i and column j. */
  lemma RowMajor(i: int, j: int)
    requires 0 <= j < 7
    ensures (i * 7 + j) / 7 == i && (i * 7 + j) % 7 == j
  {
  }

  /** The day at row-major position k falls on weekday position k % 7 + 1. */
  lemma CellWeekday(currentMonth: Date, weekStart: int, l: Layout, selectedDate: Date, today: Date, k: int)
    requires 1 <= weekStart <= 7 && l == LayoutOf(currentMonth, weekStart)
    requires CellAt(l, selectedDate, today, k).Day?
    ensures LocalizedDayOfWeek(CellAt(l, selectedDate, today, k).date, weekStart) == k % 7 + 1
  {
    var first := WithDayOfMonth(currentMonth, 1);
    var dom := k - l.offset + 1;
    var date := CellAt(l, selectedDate, today, k).date;
    assert date == WithDayOfMonth(currentMonth, dom);
    DaysOfMonthConsecutive(currentMonth, dom);
    WeekdayAdvance(first, date, weekStart, dom - 1);
    assert LocalizedDayOfWeek(first, weekStart) - 1 == l.offset;
  }

  /** A click: blank cells are not clickable; a day cell emits its own date. */
  function Click(cell: Cell): (r: Option<Date>)
    ensures r.Some? <==> cell.Day?
    ensures r.Some? ==> r.value == cell.date
  {
    match cell
    case Empty => None
    case Day(date, _, _) => Some(date)
  }

  /** The back arrow: the shown date one month back; it fails before year -999999999. */
  function PreviousMonth(currentMonth: Date): (r: Result<Date, DateError>)
    ensures r.Success? <==> MonthIndex(LocalDate(MinYear, 1, 1)) <= MonthIndex(currentMonth) - 1
    ensures r.Success? ==> MonthIndex(r.value) + 1 == MonthIndex(currentMonth)
    ensures r.Success? ==> DayClamped(currentMonth, r.value)
  {
    MinusMonths(currentMonth, 1)
  }

  /** The forward arrow: the shown date one month on; it fails after year 999999999. */
  function NextMonth(currentMonth: Date): (r: Result<Date, DateError>)
    ensures r.Success? <==> MonthIndex(currentMonth) + 1 <= MonthIndex(LocalDate(MaxYear, 12, 1))
    ensures r.Success? ==> MonthIndex(r.value) == MonthIndex(currentMonth) + 1
    ensures r.Success? ==> DayClamped(currentMonth, r.value)
  {
    PlusMonths(currentMonth, 1)
  }
}

=== FILE: converters.dfy ===
/**
 * The Room type converter for dates: a `LocalDate` is stored as text in
 * `DateTimeFormatter.ISO_LOCAL_DATE` form and parsed back strictly. For years
 * 0000..9999 the text is the full-date of section 5.6 of RFC 3339, `YYYY-MM-DD`.
 */
module Converters {
  import opened Wrappers
  import opened Calendar

  /** Why `LocalDate.parse` threw: bad syntax, or a well-formed field out of range. */
  datatype ParseError = Malformed | InvalidValue

  predicate IsDigit(c: char)
  {
    '0' <= c <= '9'
  }

  predicate AllDigits(s: string)
  {
    forall i :: 0 <= i < |s| ==> IsDigit(s[i])
  }

  function DigitChar(v: int): (c: char)
    requires 0 <= v <= 9
    ensures IsDigit(c)
  {
    (48 + v) as char
  }

  function DigitValue(c: char): (v: int)
    requires IsDigit(c)
    ensures 0 <= v <= 9
  {
    c as int - 48
  }

  function Pow10(k: nat): (p: nat)
    ensures p >= 1
  {
    if k == 0 then 1 else 10 * Pow10(k - 1)
  }

  /** The number a string of decimal digits denotes, most significant first. */
  function ValueOf(s: string): (v: nat)
    requires AllDigits(s)
    decreases |s|
  {
    if s == [] then 0 else 10 * ValueOf(s[..|s| - 1]) + DigitValue(s[|s| - 1])
  }

  /** The shortest decimal numeral of n (`Long.toString`). */
  function Decimal(n: nat): (s: string)
    ensures 1 <= |s| && AllDigits(s)
    decreases n
  {
    if n < 10 then [DigitChar(n)] else Decimal(n / 10) + [DigitChar(n % 10)]
  }

  function Zeros(k: nat): (s: string)
    ensures |s| == k && AllDigits(s)
  {
    seq(k, _ => '0')
  }

  lemma {:induction false} ValueOfZeros(k: nat)
    ensures ValueOf(Zeros(k)) == 0
  {
    if k > 0 {
      assert Zeros(k)[..k - 1] == Zeros(k - 1);
      ValueOfZeros(k - 1);
    }
  }

  /** Leading zeros do not change a numeral's value. */
  lemma {:induction false} ValueOfZerosThen(k: nat, s: string)
    requires AllDigits(s)
    ensures AllDigits(Zeros(k) + s) && ValueOf(Zeros(k) + s) == ValueOf(s)
    decreases |s|
  {
    var t := Zeros(k) + s;
    if s == [] {
      assert t == Zeros(k);
      ValueOfZeros(k);
    } else {
      assert t[..|t| - 1] == Zeros(k) + s[..|s| - 1];
      ValueOfZerosThen(k, s[..|s| - 1]);
    }
  }

  /** The numeral printed by `Decimal` denotes the number printed. */
  lemma {:induction false} ValueOfDecimal(n: nat)
    ensures ValueOf(Decimal(n)) == n
    decreases n
  {
    if n >= 10 {
      var s := Decimal(n);
      assert s[..|s| - 1] == Decimal(n / 10);
      ValueOfDecimal(n / 10);
    }
  }

  /** A number needs at most k digits exactly when it is below 10^k. */
  lemma {:induction false} DecimalLength(n: nat, k: nat)
    requires k >= 1
    ensures |Decimal(n)| <= k <==> n < Pow10(k)
    decreases n
  {
    if n >= 10 {
      if k == 1 {
        assert Pow10(1) == 10;
      } else {
        DecimalLength(n / 10, k - 1);
      }
    } else {
      assert Pow10(k) == 10 * Pow10(k - 1);
    }
  }

  /** A string of k digits denotes a number below 10^k. */
  lemma {:induction false} ValueOfBound(s: string)
    requires AllDigits(s)
    ensures ValueOf(s) < Pow10(|s|)
    decreases |s|
  {
    if s != [] {
      ValueOfBound(s[..|s| - 1]);
    }
  }

  /** A digit string denoting zero is all zeros. */
  lemma {:induction false} ZeroValueIsZeros(s: string)
    requires AllDigits(s) && ValueOf(s) == 0
    ensures s == Zeros(|s|)
    decreases |s|
  {
    if s != [] {
      ZeroValueIsZeros(s[..|s| - 1]);
      assert s == s[..|s| - 1] + [s[|s| - 1]];
    }
  }

  /** Left-pads a numeral with zeros to at least `width` digits, keeping its value. */
  function ZeroPad(s: string, width: nat): (r: string)
    requires AllDigits(s)
    ensures AllDigits(r) && ValueOf(r) == ValueOf(s)
    ensures |r| == if |s| >= width then |s| else width
  {
    if |s| >= width then s
    else
      ValueOfZerosThen(width - |s|, s);
      Zeros(width - |s|) + s
  }

  /** A digit string is the zero-padded numeral of its own value. */
  lemma {:induction false} DigitsAreCanonical(s: string)
    requires AllDigits(s) && |s| >= 1
    ensures ZeroPad(Decimal(ValueOf(s)), |s|) == s
    decreases |s|
  {
    var p, c := s[..|s| - 1], s[|s| - 1];
    assert s == p + [c];
    ValueOfSnoc(p, c);
    var v := ValueOf(s);
    assert v == 10 * ValueOf(p) + DigitValue(c);
    if ValueOf(p) == 0 {
      CanonicalLastDigit(p, c, v);
    } else {
      DigitsAreCanonical(p);
      CanonicalStep(p, c, v);
    }
  }

  /** The value of a numeral with one more digit at the end. */
  lemma ValueOfSnoc(p: string, c: char)
    requires AllDigits(p) && IsDigit(c)
    ensures AllDigits(p + [c]) && ValueOf(p + [c]) == 10 * ValueOf(p) + DigitValue(c)
  {
    var s := p + [c];
    assert s[..|s| - 1] == p;
  }

  /** Zeros followed by one digit are the padded numeral of that digit. */
  lemma CanonicalLastDigit(p: string, c: char, v: nat)
    requires AllDigits(p) && IsDigit(c) && ValueOf(p) == 0 && v == DigitValue(c)
    ensures ZeroPad(Decimal(v), |p| + 1) == p + [c]
  {
    ZeroValueIsZeros(p);
    assert Decimal(v) == [] + [c];
    ZeroPadAppend([], c, |p| + 1);
    assert ZeroPad([], |p|) == Zeros(|p|);
  }

  /** A canonical numeral stays canonical when one digit is appended. */
  lemma CanonicalStep(p: string, c: char, v: nat)
    requires AllDigits(p) && IsDigit(c) && ValueOf(p) > 0 && v == 10 * ValueOf(p) + DigitValue(c)
    requires ZeroPad(Decimal(ValueOf(p)), |p|) == p
    ensures ZeroPad(Decimal(v), |p| + 1) == p + [c]
  {
    DecimalStep(ValueOf(p), c);
    ZeroPadAppend(Decimal(ValueOf(p)), c, |p| + 1);
  }

  /** Appending a digit to a positive number's value appends it to its numeral. */
  lemma DecimalStep(v: nat, c: char)
    requires IsDigit(c) && v > 0
    ensures Decimal(10 * v + DigitValue(c)) == Decimal(v) + [c]
  {
    var n := 10 * v + DigitValue(c);
    assert n / 10 == v && n % 10 == DigitValue(c);
    assert DigitChar(DigitValue(c)) == c;
  }

  /** Padding a numeral with one more digit pads the numeral and then appends the digit. */
  lemma ZeroPadAppend(d: string, c: char, width: nat)
    requires AllDigits(d) && IsDigit(c) && width >= 1
    ensures AllDigits(d + [c])
    ensures ZeroPad(d + [c], width) == ZeroPad(d, width - 1) + [c]
  {
    assert AllDigits(d + [c]);
    if |d| + 1 < width {
      assert Zeros(width - |d| - 1) + (d + [c]) == (Zeros(width - 1 - |d|) + d) + [c];
    }
  }

  // ----- formatting -----

  /**
   * The year field: at least four digits, a '+' only beyond 9999 and a '-'
   * for years before 0000 (sign style EXCEEDS_PAD).
   */
  function FormatYear(y: int): (r: string)
    ensures 0 <= y <= 9999 ==> |r| == 4 && AllDigits(r) && ValueOf(r) == y
  {
    DecimalLength(if y < 0 then -y else y, 4);
    ValueOfDecimal(if y < 0 then -y else y);
    assert Pow10(4) == 10000;
    var digits := ZeroPad(Decimal(if y < 0 then -y else y), 4);
    if y > 9999 then "+" + digits else if y < 0 then "-" + digits else digits
  }

  /** Month and day: exactly two digits. */
  function TwoDigits(v: nat): (s: string)
    requires v <= 99
    ensures |s| == 2 && AllDigits(s) && ValueOf(s) == v
  {
    DecimalLength(v, 2);
    ValueOfDecimal(v);
    ZeroPad(Decimal(v), 2)
  }

  /** The ISO local-date text of a date: year field, '-', two-digit month, '-', two-digit day. */
  function Format(d: Date): (s: string)
    ensures 0 <= d.year <= 9999 ==>
      |s| == 10 && s[4] == '-' && s[7] == '-'
      && AllDigits(s[..4]) && AllDigits(s[5..7]) && AllDigits(s[8..])
      && ValueOf(s[..4]) == d.year && ValueOf(s[5..7]) == d.month && ValueOf(s[8..]) == d.day
  {
    var s := FormatYear(d.year) + "-" + TwoDigits(d.month) + "-" + TwoDigits(d.day);
    assert 0 <= d.year <= 9999 ==>
      s[..4] == FormatYear(d.year) && s[5..7] == TwoDigits(d.month) && s[8..] == TwoDigits(d.day);
    s
  }

  // ----- parsing -----

  /** The number of digits at the start of s. */
  function LeadingDigits(s: string): (n: nat)
    ensures n <= |s| && AllDigits(s[..n])
    ensures n < |s| ==> !IsDigit(s[n])
  {
    if s == [] || !IsDigit(s[0]) then 0
    else
      var n := 1 + LeadingDigits(s[1..]);
      assert s[..n] == [s[0]] + s[1..][..n - 1];
      n
  }

  lemma {:induction false} LeadingDigitsOfDigitsThen(a: string, b: string)
    requires AllDigits(a) && b != [] && !IsDigit(b[0])
    ensures LeadingDigits(a + b) == |a|
  {
    if a != [] {
      assert (a + b)[1..] == a[1..] + b;
      LeadingDigitsOfDigitsThen(a[1..], b);
    }
  }

  /**
   * The strict sign rules of the year field, given the sign read (' ' for
   * none) and the run of digits after it: 4 to 10 digits; without a sign
   * exactly 4, '+' only with more than 4, and no "-0000".
   */
  function YearField(sign: char, digits: string): Option<int>
    requires AllDigits(digits)
  {
    var v: int := ValueOf(digits);
    if |digits| < 4 || |digits| > 10 then None
    else if sign == '-' then (if v == 0 then None else Some(-v))
    else if sign == '+' then (if |digits| == 4 then None else Some(v))
    else if |digits| > 4 then None
    else Some(v)
  }

  /**
   * A whole year field naming year y: exactly four digits unsigned; after a
   * '+', five to ten digits; after a '-', four to ten digits naming a year
   * before 0000.
   */
  predicate YearText(t: string, y: int)
  {
    if |t| > 0 && t[0] == '+' then
      5 <= |t| - 1 <= 10 && AllDigits(t[1..]) && y == ValueOf(t[1..])
    else if |t| > 0 && t[0] == '-' then
      4 <= |t| - 1 <= 10 && AllDigits(t[1..]) && y < 0 && -y == ValueOf(t[1..])
    else
      |t| == 4 && AllDigits(t) && y == ValueOf(t)
  }

  /** The year field at the start of s: the signed year and the text after it. */
  function ParseYear(s: string): Option<(int, string)>
  {
    if |s| > 0 && (s[0] == '+' || s[0] == '-') then YearDigits(s[0], s[1..]) else YearDigits(' ', s)
  }

  /** The year's digits at the start of `body`, after the sign already read. */
  function YearDigits(sign: char, body: string): Option<(int, string)>
  {
    var n := LeadingDigits(body);
    match YearField(sign, body[..n])
    case None => None
    case Some(y) => Some((y, body[n..]))
  }

  /** The text after the year: "-MM-DD" with exactly two digits in each field. */
  predicate IsMonthDayTail(rest: string)
  {
    |rest| == 6 && rest[0] == '-' && AllDigits(rest[1..3]) && rest[3] == '-' && AllDigits(rest[4..])
  }

  /**
   * The strict ISO local-date parse of `LocalDate.parse`: the whole text
   * must match the pattern, then the STRICT resolver rejects any field out of
   * range and any day past the end of its month.
   */
  function Parse(s: string): (r: Result<Date, ParseError>)
    ensures r.Success? ==> |s| >= 10
    ensures r.Success? ==> YearText(s[..|s| - 6], r.value.year)
    ensures r.Success? ==> s[|s| - 6..] == "-" + TwoDigits(r.value.month) + "-" + TwoDigits(r.value.day)
    ensures r.Success? && |s| > 0 && IsDigit(s[0]) ==> Format(r.value) == s
  {
    match ParseYear(s)
    case None => Failure(Malformed)
    case Some((y, rest)) =>
      if IsMonthDayTail(rest) then
        var date := LocalDate(y, ValueOf(rest[1..3]), ValueOf(rest[4..]));
        if IsValid(date) then
          YearFieldLength(s);
          YearFieldSplit(s, y, rest);
          assert |s| - |rest| == |s| - 6;
          MonthDayFields(rest, date.month, date.day);
          DigitLedTextIsCanonical(s, y, rest, date);
          Success(date)
        else Failure(InvalidValue)
      else Failure(Malformed)
  }

  /** The year field takes at least four characters. */
  lemma YearFieldLength(s: string)
    requires ParseYear(s).Some?
    ensures |s| >= |ParseYear(s).value.1| + 4
  {
    var signed := |s| > 0 && (s[0] == '+' || s[0] == '-');
    var body := if signed then s[1..] else s;
    var n := LeadingDigits(body);
    assert YearDigits(if signed then s[0] else ' ', body) == ParseYear(s);
    assert YearField(if signed then s[0] else ' ', body[..n]).Some?;
    assert ParseYear(s).value.1 == body[n..];
  }

  /** An accepted text that starts with a digit is the stored form of the date it names. */
  lemma DigitLedTextIsCanonical(s: string, y: int, rest: string, date: Date)
    requires ParseYear(s) == Some((y, rest)) && IsMonthDayTail(rest)
    requires date == LocalDate(y, ValueOf(rest[1..3]), ValueOf(rest[4..]))
    ensures |s| > 0 && IsDigit(s[0]) ==> Format(date) == s
  {
    if |s| > 0 && IsDigit(s[0]) {
      UnsignedYearHasFourDigits(s);
      MonthDayPieces(s);
      FormatOfFields(date, s[..4], s[5..7], s[8..]);
      DateTextPieces(s);
    }
  }

  /** `ParseYear` splits its text into a whole year field and the rest. */
  lemma YearFieldSplit(s: string, y: int, rest: string)
    requires ParseYear(s) == Some((y, rest))
    ensures |rest| <= |s| && s[|s| - |rest|..] == rest && YearText(s[..|s| - |rest|], y)
  {
    if |s| > 0 && (s[0] == '+' || s[0] == '-') {
      var body := s[1..];
      var n := LeadingDigits(body);
      assert YearField(s[0], body[..n]) == Some(y) && rest == body[n..];
      var t := s[..|s| - |rest|];
      assert t[1..] == body[..n];
      assert s[|s| - |rest|..] == rest;
    } else {
      var n := LeadingDigits(s);
      assert YearField(' ', s[..n]) == Some(y) && rest == s[n..];
      assert s[..|s| - |rest|] == s[..n];
    }
  }

  /** A "-MM-DD" tail is the two-digit month and day it holds. */
  lemma MonthDayFields(rest: string, m: int, d: int)
    requires IsMonthDayTail(rest) && m == ValueOf(rest[1..3]) && d == ValueOf(rest[4..])
    ensures m <= 99 && d <= 99 && rest == "-" + TwoDigits(m) + "-" + TwoDigits(d)
  {
    var mm, dd := rest[1..3], rest[4..];
    ValueOfBound(mm);
    ValueOfBound(dd);
    assert Pow10(2) == 100;
    DigitsAreCanonical(mm);
    DigitsAreCanonical(dd);
    assert rest == "-" + mm + "-" + dd;
  }

  /**
   * The converse: a whole year field followed by the two-digit month and day
   * of a real date is accepted, giving that date.
   */
  lemma ParseOfShape(t: string, date: Date)
    requires YearText(t, date.year)
    ensures Parse(t + "-" + TwoDigits(date.month) + "-" + TwoDigits(date.day)) == Success(date)
  {
    var mm, dd := TwoDigits(date.month), TwoDigits(date.day);
    var tail := "-" + mm + "-" + dd;
    assert t + "-" + mm + "-" + dd == t + tail;
    var signed := t[0] == '+' || t[0] == '-';
    var sign := if signed then t[0] else ' ';
    var digits := if signed then t[1..] else t;
    assert t == (if sign == ' ' then [] else [sign]) + digits;
    assert YearField(sign, digits) == Some(date.year);
    ParseYearOfShape(sign, digits, tail);
    YearDigitsOfShape(sign, digits, tail);
    MonthDayTailOf(mm, dd);
  }

  // ----- properties of the pair -----

  /** How `ParseYear` reads the sign in front of a run of digits. */
  lemma ParseYearOfShape(sign: char, digits: string, tail: string)
    requires sign == ' ' || sign == '+' || sign == '-'
    requires AllDigits(digits) && digits != []
    ensures ParseYear((if sign == ' ' then [] else [sign]) + digits + tail) == YearDigits(sign, digits + tail)
  {
    var body := digits + tail;
    if sign == ' ' {
      assert [] + digits + tail == body;
      assert body[0] == digits[0];
    } else {
      var s := [sign] + digits + tail;
      assert s[1..] == body && s[0] == sign;
    }
  }

  /** How `YearDigits` reads a run of digits ended by a non-digit. */
  lemma YearDigitsOfShape(sign: char, digits: string, tail: string)
    requires AllDigits(digits) && tail != [] && !IsDigit(tail[0])
    ensures YearDigits(sign, digits + tail) == match YearField(sign, digits) case None => None case Some(y) => Some((y, tail))
  {
    var body := digits + tail;
    LeadingDigitsOfDigitsThen(digits, tail);
    assert body[..|digits|] == digits && body[|digits|..] == tail;
  }

  /** The year field reads back the year it was printed from, leaving the text after it. */
  lemma ParseYearOfFormat(y: int, tail: string)
    requires MinYear <= y <= MaxYear
    requires tail != [] && !IsDigit(tail[0])
    ensures ParseYear(FormatYear(y) + tail) == Some((y, tail))
  {
    var mag := if y < 0 then -y else y;
    var digits := ZeroPad(Decimal(mag), 4);
    PaddedYearDigits(mag);
    var sign := if y > 9999 then '+' else if y < 0 then '-' else ' ';
    assert YearField(sign, digits) == Some(y);
    assert FormatYear(y) == (if sign == ' ' then [] else [sign]) + digits;
    ParseYearOfShape(sign, digits, tail);
    YearDigitsOfShape(sign, digits, tail);
  }

  /** The digits printed for a year's magnitude: four to nine of them, more than four only past 9999. */
  lemma PaddedYearDigits(mag: nat)
    requires mag <= 999_999_999
    ensures var digits := ZeroPad(Decimal(mag), 4);
      4 <= |digits| <= 9 && ValueOf(digits) == mag && (|digits| == 4 <==> mag <= 9999)
  {
    DecimalLength(mag, 4);
    DecimalLength(mag, 9);
    Pow10Values();
    ValueOfDecimal(mag);
  }

  lemma Pow10Values()
    ensures Pow10(4) == 10_000 && Pow10(9) == 1_000_000_000
  {
    assert Pow10(4) == 10_000;
    assert Pow10(9) == 10_000 * Pow10(5);
  }

  /** Parsing what was formatted gives back the date, for every supported year. */
  lemma ParseFormatRoundTrip(d: Date)
    ensures Parse(Format(d)) == Success(d)
  {
    var mm, dd := TwoDigits(d.month), TwoDigits(d.day);
    var tail := "-" + mm + "-" + dd;
    FormatPieces(d);
    ParseYearOfFormat(d.year, tail);
    MonthDayTailOf(mm, dd);
  }

  lemma FormatPieces(d: Date)
    ensures Format(d) == FormatYear(d.year) + ("-" + TwoDigits(d.month) + "-" + TwoDigits(d.day))
  {
  }

  /** "-MM-DD" built from two two-digit fields is a month-and-day tail holding those fields. */
  lemma MonthDayTailOf(mm: string, dd: string)
    requires |mm| == 2 && |dd| == 2 && AllDigits(mm) && AllDigits(dd)
    ensures var tail := "-" + mm + "-" + dd;
      IsMonthDayTail(tail) && tail[1..3] == mm && tail[4..] == dd
  {
    var tail := "-" + mm + "-" + dd;
    assert tail[1..3] == mm && tail[4..] == dd;
  }

  /**
   * The strict parse of a `YYYY-MM-DD` shaped text: it succeeds exactly when
   * the three numbers name a real day, which it then returns.
   */
  lemma ParseFullDate(s: string)
    requires |s| == 10 && s[4] == '-' && s[7] == '-'
    requires AllDigits(s[..4]) && AllDigits(s[5..7]) && AllDigits(s[8..])
    ensures var date := LocalDate(ValueOf(s[..4]), ValueOf(s[5..7]), ValueOf(s[8..]));
      Parse(s) == if IsValid(date) then Success(date) else Failure(InvalidValue)
  {
    assert s == s[..4] + s[4..];
    LeadingDigitsOfDigitsThen(s[..4], s[4..]);
    assert s[4..][1..3] == s[5..7] && s[4..][4..] == s[8..];
  }

  /** After a four-digit year, a "-MM-DD" tail makes the text ten characters with its fields in place. */
  lemma MonthDayPieces(s: string)
    requires |s| >= 4 && IsMonthDayTail(s[4..])
    ensures |s| == 10 && s[4] == '-' && s[7] == '-' && AllDigits(s[5..7]) && AllDigits(s[8..])
    ensures s[4..][1..3] == s[5..7] && s[4..][4..] == s[8..]
  {
    var rest := s[4..];
    assert rest[1..3] == s[5..7] && rest[4..] == s[8..];
  }

  lemma DateTextPieces(s: string)
    requires |s| == 10 && s[4] == '-' && s[7] == '-'
    ensures s == s[..4] + "-" + s[5..7] + "-" + s[8..]
  {
  }

  /** A year field read without a sign is exactly four digits. */
  lemma UnsignedYearHasFourDigits(s: string)
    requires |s| > 0 && IsDigit(s[0]) && ParseYear(s).Some?
    ensures |s| >= 4 && AllDigits(s[..4]) && ParseYear(s) == Some((ValueOf(s[..4]) as int, s[4..]))
  {
    var n := LeadingDigits(s);
    assert ParseYear(s) == YearDigits(' ', s);
    assert YearField(' ', s[..n]).Some?;
    assert n == 4;
  }

  /** A date whose fields have the given digit strings is printed as those strings. */
  lemma FormatOfFields(d: Date, y: string, m: string, dd: string)
    requires |y| == 4 && |m| == 2 && |dd| == 2
    requires AllDigits(y) && AllDigits(m) && AllDigits(dd)
    requires ValueOf(y) == d.year && ValueOf(m) == d.month && ValueOf(dd) == d.day
    ensures Format(d) == y + "-" + m + "-" + dd
  {
    DigitsAreCanonical(y);
    DigitsAreCanonical(m);
    DigitsAreCanonical(dd);
    ValueOfBound(y);
    Pow10Values();
    assert FormatYear(d.year) == y;
  }

  /** Distinct dates are stored as distinct texts. */
  lemma FormatInjective(a: Date, b: Date)
    requires Format(a) == Format(b)
    ensures a == b
  {
    ParseFormatRoundTrip(a);
    ParseFormatRoundTrip(b);
  }

  // ----- the converter methods: null maps to null -----

  /** `Converters.dateToTimestamp`. */
  function DateToTimestamp(date: Option<Date>): (r: Option<string>)
    ensures r.None? <==> date.None?
    ensures date.Some? ==> r.Some? && Parse(r.value) == Success(date.value)
  {
    match date
    case None => None
    case Some(d) =>
      ParseFormatRoundTrip(d);
      Some(Format(d))
  }

  /** `Converters.fromTimestamp`; a `Failure` is the exception `LocalDate.parse` throws. */
  function FromTimestamp(value: Option<string>): (r: Result<Option<Date>, ParseError>)
    ensures r == Success(None) <==> value.None?
  {
    match value
    case None => Success(None)
    case Some(s) =>
      match Parse(s)
      case Success(d) => Success(Some(d))
      case Failure(e) => Failure(e)
  }

  /** Every value the column can hold, null included, reads back as written. */
  lemma ConverterRoundTrip(date: Option<Date>)
    ensures FromTimestamp(DateToTimestamp(date)) == Success(date)
  {
    if date.Some? {
      ParseFormatRoundTrip(date.value);
    }
  }
}

=== FILE: daily_tasks_screen.dfy ===
/**
 * `DailyTasksScreen`: every task of one day, reached with the day's epoch
 * day as its argument; its list filters the full task list by that date.
 */
module DailyTasksScreen {
  import opened Wrappers
  import opened Calendar
  import opened EpochDay
  import opened Tasks
  import opened TaskDao
  import opened TaskViewModel
  import opened Screens
  import CalendarScreen
  import TaskFormDialog

  /** The screen's date, `LocalDate.ofEpochDay(epochDay)`; it throws outside the supported range. */
  function ScreenDate(epochDay: int): (r: Result<Date, DateError>)
    ensures r.Success? <==> MinEpochDay <= epochDay <= MaxEpochDay
    ensures r.Success? ==> ToEpochDay(r.value) == epochDay
  {
    OfEpochDay(epochDay)
  }

  /** The day's list: all tasks, filtered to those due on `date`, order kept. */
  function TasksForThisDay(allTasks: seq<Task>, date: Date): (r: seq<Task>)
    ensures forall t :: t in r <==> t in allTasks && t.dueDate == date
    ensures forall t :: multiset(r)[t] == if t.dueDate == date then multiset(allTasks)[t] else 0
    ensures SubsequenceOf(r, allTasks)
    ensures IdsDescending(allTasks) ==> IdsDescending(r)
  {
    FilterByDate(allTasks, date)
  }

  /** Once the flows have settled, the day's list is the store's query for that date. */
  lemma DayListIsDateQuery(vm: ViewModel, date: Date)
    requires Settled(vm)
    ensures TasksForThisDay(vm.allTasks, date) == GetTasksForDate(vm.store, date)
  {
    ForDateIsFilteredListing(vm.store, date);
  }

  /**
   * "See all" opens the day screen on the selected date, and once settled it
   * lists the same tasks as the calendar screen's day list: the preview is
   * its beginning.
   */
  lemma ShowAllOpensSelectedDay(vm: ViewModel, mode: ViewMode)
    requires Settled(vm)
    ensures ScreenDate(CalendarScreen.ShowAllRoute(vm)) == Success(vm.selectedDate)
    ensures TasksForThisDay(vm.allTasks, vm.selectedDate) == vm.tasksForSelectedDate
    ensures CalendarScreen.PreviewOf(vm.tasksForSelectedDate, mode).shown <= TasksForThisDay(vm.allTasks, vm.selectedDate)
  {
    DayListIsDateQuery(vm, vm.selectedDate);
  }

  /**
   * A task created on this screen is due on the screen's date, and heads the
   * day's list once the flows settle.
   */
  lemma CreatedTaskHeadsDayList(s: Screen, date: Date, events: seq<TaskFormDialog.Event>)
    requires s.dialogs.taskToEdit.None?
    requires TaskFormDialog.Confirm(TaskFormDialog.Run(FormOf(s, date), events)).Some?
    ensures var task := TaskFormDialog.Confirm(TaskFormDialog.Run(FormOf(s, date), events)).value;
      var after := Settle(ConfirmForm(s, task).vm);
      var day := TasksForThisDay(after.allTasks, date);
      day != [] && day[0].description == task.description && day[0].dueDate == date
      && day[1..] == TasksForThisDay(GetAllTasks(s.vm.store), date)
  {
    var task := TaskFormDialog.Confirm(TaskFormDialog.Run(FormOf(s, date), events)).value;
    CreateThroughForm(s, date, events);
    var r := ConfirmForm(s, task);
    var id :| id !in s.vm.store.rows && id != 0
      && GetAllTasks(r.vm.store) == [Task(id, task.description, false, date)] + GetAllTasks(s.vm.store);
    var head := Task(id, task.description, false, date);
    assert Settle(r.vm).allTasks == [head] + GetAllTasks(s.vm.store);
    FilterKeepsHead(head, GetAllTasks(s.vm.store), date);
    var day := TasksForThisDay(Settle(r.vm).allTasks, date);
    assert day == [head] + TasksForThisDay(GetAllTasks(s.vm.store), date);
    assert day[1..] == TasksForThisDay(GetAllTasks(s.vm.store), date);
  }

  /** Filtering a list whose head is due on the date keeps that head in front. */
  lemma FilterKeepsHead(head: Task, rest: seq<Task>, date: Date)
    requires head.dueDate == date
    ensures TasksForThisDay([head] + rest, date) == [head] + TasksForThisDay(rest, date)
  {
    assert ([head] + rest)[1..] == rest;
  }
}

=== FILE: epoch_day.dfy ===
/**
 * `LocalDate.toEpochDay` / `LocalDate.ofEpochDay`: a date as the signed count
 * of days from 1970-01-01, and back; and the day of the week derived from it.
 */
module EpochDay {
  import opened Wrappers
  import opened Calendar

  /** Days from 0000-01-01 to 1970-01-01. */
  const DaysFrom0000To1970: int := 719528

  /** The valid range of the `EPOCH_DAY` field: -999999999-01-01 .. 999999999-12-31. */
  const MinEpochDay: int := -365243219162
  const MaxEpochDay: int := 365241780471

  /** Days from 0000-01-01 to the given date. */
  function DaysFromZero(d: Date): int
  {
    DaysBeforeYear(d.year) + DaysBeforeMonth(d.year, d.month) + d.day - 1
  }

  /** A date's day count lies inside its own year's span. */
  lemma DaysFromZeroInYear(d: Date)
    ensures DaysBeforeYear(d.year) <= DaysFromZero(d) < DaysBeforeYear(d.year + 1)
  {
    MonthsIncreasing(d.year, d.month, d.month);
    YearsTileTheLine(d.year);
  }

  /** Every supported date falls between the first and last supported days. */
  lemma DaysFromZeroInRange(d: Date)
    ensures MinEpochDay <= DaysFromZero(d) - DaysFrom0000To1970 <= MaxEpochDay
  {
    DaysFromZeroInYear(d);
    if d.year > MinYear { DaysBeforeYearIncreasing(MinYear, d.year); }
    if d.year < MaxYear { DaysBeforeYearIncreasing(d.year + 1, MaxYear + 1); }
  }

  /** `LocalDate.toEpochDay`. */
  function ToEpochDay(d: Date): (n: int)
    ensures MinEpochDay <= n <= MaxEpochDay
  {
    DaysFromZeroInRange(d);
    DaysFromZero(d) - DaysFrom0000To1970
  }

  /** Distinct dates have distinct day counts. */
  lemma {:induction false} ToEpochDayInjective(a: Date, b: Date)
    requires ToEpochDay(a) == ToEpochDay(b)
    ensures a == b
  {
    DaysFromZeroInYear(a);
    DaysFromZeroInYear(b);
    if a.year < b.year {
      if a.year + 1 < b.year { DaysBeforeYearIncreasing(a.year + 1, b.year); }
    } else if b.year < a.year {
      if b.year + 1 < a.year { DaysBeforeYearIncreasing(b.year + 1, a.year); }
    }
    assert a.year == b.year;
    MonthsIncreasing(a.year, a.month, b.month);
    MonthsIncreasing(a.year, b.month, a.month);
  }

  /** The year k in [start, 400) of a 400-year cycle in which day r of the cycle falls. */
  function YearInCycle(r: int, start: int): (k: int)
    requires 0 <= start < 400 && DaysBeforeYear(start) <= r < DaysPerCycle
    ensures start <= k < 400
    ensures DaysBeforeYear(k) <= r < DaysBeforeYear(k + 1)
    decreases 400 - start
  {
    if r < DaysBeforeYear(start + 1) then start
    else YearInCycle(r, start + 1)
  }

  /** The year whose span holds day z counted from 0000-01-01. */
  function YearOfDay(z: int): (y: int)
    ensures DaysBeforeYear(y) <= z < DaysBeforeYear(y + 1)
  {
    var q := z / DaysPerCycle;
    var k := YearInCycle(z % DaysPerCycle, 0);
    CyclesRepeat(k, q);
    CyclesRepeat(k + 1, q);
    400 * q + k
  }

  /** The month, from `start` on, holding day `doy` (counted from 0) of year y. */
  function MonthOfDay(y: int, doy: int, start: int): (m: int)
    requires 1 <= start <= 12 && DaysBeforeMonth(y, start) <= doy < LengthOfYear(y)
    ensures start <= m <= 12
    ensures DaysBeforeMonth(y, m) <= doy < DaysBeforeMonth(y, m) + LengthOfMonth(y, m)
    decreases 12 - start
  {
    MonthsTileTheYear(y, start);
    if start == 12 || doy < DaysBeforeMonth(y, start + 1) then start
    else MonthOfDay(y, doy, start + 1)
  }

  /** A year whose span holds a day of the supported range is a supported year. */
  lemma YearOfDayInRange(y: int, z: int)
    requires DaysBeforeYear(y) <= z < DaysBeforeYear(y + 1)
    requires MinEpochDay <= z - DaysFrom0000To1970 <= MaxEpochDay
    ensures MinYear <= y <= MaxYear
  {
    if y < MinYear && y + 1 < MinYear { DaysBeforeYearIncreasing(y + 1, MinYear); }
    if y > MaxYear { DaysBeforeYearIncreasing(MaxYear + 1, y); }
  }

  /**
   * `LocalDate.ofEpochDay`: the date n days after 1970-01-01; a count outside
   * the `EPOCH_DAY` range throws.
   */
  function OfEpochDay(n: int): (r: Result<Date, DateError>)
    ensures r.Success? <==> MinEpochDay <= n <= MaxEpochDay
    ensures r.Success? ==> ToEpochDay(r.value) == n
  {
    if n < MinEpochDay || n > MaxEpochDay then Failure(YearOutOfRange)
    else
      var z := n + DaysFrom0000To1970;
      var y := YearOfDay(z);
      YearOfDayInRange(y, z);
      YearsTileTheLine(y);
      var doy := z - DaysBeforeYear(y);
      var m := MonthOfDay(y, doy, 1);
      Success(LocalDate(y, m, doy - DaysBeforeMonth(y, m) + 1))
  }

  /** The navigation round trip: a date survives being passed as its epoch day. */
  lemma EpochDayRoundTrip(d: Date)
    ensures OfEpochDay(ToEpochDay(d)) == Success(d)
  {
    var r := OfEpochDay(ToEpochDay(d));
    ToEpochDayInjective(r.value, d);
  }

  /** And every supported epoch day survives being turned into a date. */
  lemma DateRoundTrip(n: int)
    requires MinEpochDay <= n <= MaxEpochDay
    ensures OfEpochDay(n).Success? && ToEpochDay(OfEpochDay(n).value) == n
  {
  }

  /** Java's `/` on `long`: the quotient truncated toward zero. */
  function Quot(a: int, b: int): int
    requires b != 0
  {
    var q := (if a < 0 then -a else a) / (if b < 0 then -b else b);
    if (a < 0) == (b < 0) then q else -q
  }

  /**
   * `LocalDate.toEpochDay` written the library's way: truncating division with
   * a separate branch for negative years, and a linear month formula corrected
   * after February.
   */
  function LibraryToEpochDay(d: Date): int
  {
    var y := d.year;
    var m := d.month;
    var leaps := if y >= 0 then (y + 3) / 4 - (y + 99) / 100 + (y + 399) / 400
                 else -(Quot(y, -4) - Quot(y, -100) + Quot(y, -400));
    var total := 365 * y + leaps + (367 * m - 362) / 12 + d.day - 1;
    var adjusted := if m > 2 then (if IsLeapYear(y) then total - 1 else total - 2) else total;
    adjusted - DaysFrom0000To1970
  }

  /** Rounding up equals negated rounding down of the negation. */
  lemma CeilingByFloor(y: int, k: int)
    requires k == 4 || k == 100 || k == 400
    requires y < 0
    ensures (y + k - 1) / k == -Quot(y, -k)
  {
  }

  /** The library's month formula reproduces the month table. */
  lemma MonthFormula(y: int, m: int)
    requires 1 <= m <= 12
    ensures DaysBeforeMonth(y, m)
      == (367 * m - 362) / 12 - (if m > 2 then (if IsLeapYear(y) then 1 else 2) else 0)
  {
  }

  /** The calendar-table definition agrees with the library's arithmetic everywhere. */
  lemma ToEpochDayMatchesLibrary(d: Date)
    ensures ToEpochDay(d) == LibraryToEpochDay(d)
  {
    MonthFormula(d.year, d.month);
    if d.year < 0 {
      CeilingByFloor(d.year, 4);
      CeilingByFloor(d.year, 100);
      CeilingByFloor(d.year, 400);
    }
  }

  /** `LocalDate.getDayOfWeek` as an ISO number: 1 is Monday, 7 is Sunday. */
  function IsoDayOfWeek(d: Date): (w: int)
    ensures 1 <= w <= 7
  {
    (ToEpochDay(d) + 3) % 7 + 1
  }

  /**
   * `date.get(WeekFields.of(locale).dayOfWeek())`: the day's position, 1..7, in
   * a week that starts on the locale's first day (an ISO number, 7 = Sunday).
   */
  function LocalizedDayOfWeek(d: Date, firstDayOfWeek: int): (w: int)
    requires 1 <= firstDayOfWeek <= 7
    ensures 1 <= w <= 7
    ensures w == 1 <==> IsoDayOfWeek(d) == firstDayOfWeek
    ensures (w - 1 + firstDayOfWeek - IsoDayOfWeek(d)) % 7 == 0
  {
    (IsoDayOfWeek(d) - firstDayOfWeek) % 7 + 1
  }

  /** 1970-01-01, epoch day 0, was a Thursday. */
  lemma EpochWasThursday()
    ensures ToEpochDay(LocalDate(1970, 1, 1)) == 0
    ensures IsoDayOfWeek(LocalDate(1970, 1, 1)) == 4
  {
  }

  /** The weekday advances by one, cyclically, from each day to the next. */
  lemma WeekdaysCycle(n: int)
    requires MinEpochDay <= n < MaxEpochDay
    ensures IsoDayOfWeek(OfEpochDay(n + 1).value) == IsoDayOfWeek(OfEpochDay(n).value) % 7 + 1
  {
    var today, tomorrow := OfEpochDay(n).value, OfEpochDay(n + 1).value;
    assert ToEpochDay(today) == n && ToEpochDay(tomorrow) == n + 1;
    ModSum(n + 3, 1);
  }

  /** Reducing a summand mod 7 first does not change the sum mod 7. */
  lemma ModSum(a: int, b: int)
    ensures (a % 7 + b) % 7 == (a + b) % 7
  {
    var q := a / 7;
    assert a == 7 * q + a % 7;
    assert a + b == (a % 7 + b) + 7 * q;
  }
}

=== FILE: screens.dfy ===
/**
 * The decision logic the calendar screen and the day screen share: the
 * task-list view modes, the dialogs' open/confirm/dismiss state, and the
 * dispatch of a confirmed form to the view-model.
 */
module Screens {
  import opened Wrappers
  import opened Calendar
  import opened Tasks
  import opened TaskViewModel
  import TaskFormDialog

  /** `EnumTaskViewMode`: how the calendar screen previews the day's tasks. */
  datatype ViewMode = List | CompactList | Cards

  /** What a screen's dialogs hold besides the view-model. */
  datatype Dialogs = Dialogs(showCreateEditDialog: bool, taskToEdit: Option<Task>,
                             showDeleteConfirmationDialog: bool, taskToDelete: Option<Task>)

  /** A screen: the view-model it drives and its dialog state. */
  datatype Screen = Screen(vm: ViewModel, dialogs: Dialogs)

  /** Nothing open and nothing pending, as a screen first composes. */
  const NoDialogs: Dialogs := Dialogs(false, None, false, None)

  /** The add button: opens the form with no task, so it creates. */
  function OpenCreate(s: Screen): (r: Screen)
    ensures r.vm == s.vm && r.dialogs.showCreateEditDialog && r.dialogs.taskToEdit == None
    ensures r.dialogs.showDeleteConfirmationDialog == s.dialogs.showDeleteConfirmationDialog
    ensures r.dialogs.taskToDelete == s.dialogs.taskToDelete
  {
    s.(dialogs := s.dialogs.(taskToEdit := None, showCreateEditDialog := true))
  }

  /** A task's edit button: opens the form on that task. */
  function OpenEdit(s: Screen, t: Task): (r: Screen)
    ensures r.vm == s.vm && r.dialogs.showCreateEditDialog && r.dialogs.taskToEdit == Some(t)
    ensures r.dialogs.showDeleteConfirmationDialog == s.dialogs.showDeleteConfirmationDialog
    ensures r.dialogs.taskToDelete == s.dialogs.taskToDelete
  {
    s.(dialogs := s.dialogs.(taskToEdit := Some(t), showCreateEditDialog := true))
  }

  /** A task's delete button: asks for confirmation about that task. */
  function OpenDelete(s: Screen, t: Task): (r: Screen)
    ensures r.vm == s.vm && r.dialogs.showDeleteConfirmationDialog && r.dialogs.taskToDelete == Some(t)
    ensures r.dialogs.showCreateEditDialog == s.dialogs.showCreateEditDialog
    ensures r.dialogs.taskToEdit == s.dialogs.taskToEdit
  {
    s.(dialogs := s.dialogs.(taskToDelete := Some(t), showDeleteConfirmationDialog := true))
  }

  /** The form as the screen opens it; `defaultDate` is the date a new task is due on. */
  function FormOf(s: Screen, defaultDate: Date): (f: TaskFormDialog.Form)
    ensures f.original == s.dialogs.taskToEdit
    ensures s.dialogs.taskToEdit.None? ==> f.dueDate == defaultDate && f.description == ""
  {
    TaskFormDialog.Open(s.dialogs.taskToEdit, defaultDate)
  }

  /**
   * The form's `onConfirm`: a task with id 0 is new and goes to `addTask`
   * with its description and due date; any other goes to `updateTask`.
   * The form closes either way.
   */
  function ConfirmForm(s: Screen, task: Task): (r: Screen)
    ensures !r.dialogs.showCreateEditDialog
    ensures r.dialogs.taskToEdit == s.dialogs.taskToEdit
    ensures r.dialogs.showDeleteConfirmationDialog == s.dialogs.showDeleteConfirmationDialog
    ensures r.dialogs.taskToDelete == s.dialogs.taskToDelete
    ensures r.vm.selectedDate == s.vm.selectedDate
    ensures task.id == 0 ==> exists id :: (id !in s.vm.store.rows && id != 0
      && TaskDao.GetAllTasks(r.vm.store) == [Task(id, task.description, false, task.dueDate)] + TaskDao.GetAllTasks(s.vm.store))
    ensures task.id != 0 && task.id in s.vm.store.rows ==> task.id in r.vm.store.rows && r.vm.store.rows[task.id] == task
    ensures task.id != 0 ==> TaskDao.OthersUnchanged(s.vm.store, r.vm.store, task.id)
    ensures task.id != 0 && task.id !in s.vm.store.rows ==> r.vm.store == s.vm.store
  {
    var vm := if task.id == 0 then AddTask(s.vm, task.description, task.dueDate) else UpdateTask(s.vm, task);
    Screen(vm, s.dialogs.(showCreateEditDialog := false))
  }

  /** The form's dismiss: closes it and changes nothing else. */
  function DismissForm(s: Screen): (r: Screen)
    ensures r.vm == s.vm && !r.dialogs.showCreateEditDialog
    ensures r.dialogs.(showCreateEditDialog := s.dialogs.showCreateEditDialog) == s.dialogs
  {
    s.(dialogs := s.dialogs.(showCreateEditDialog := false))
  }

  /**
   * The delete dialog's confirm: deletes the pending task if there is one,
   * then clears it and closes the dialog.
   */
  function ConfirmDelete(s: Screen): (r: Screen)
    ensures !r.dialogs.showDeleteConfirmationDialog && r.dialogs.taskToDelete == None
    ensures r.dialogs.showCreateEditDialog == s.dialogs.showCreateEditDialog
    ensures r.dialogs.taskToEdit == s.dialogs.taskToEdit
    ensures r.vm.selectedDate == s.vm.selectedDate
    ensures s.dialogs.taskToDelete.None? ==> r.vm == s.vm
    ensures s.dialogs.taskToDelete.Some? ==> (s.dialogs.taskToDelete.value.id !in r.vm.store.rows
      && TaskDao.OthersUnchanged(s.vm.store, r.vm.store, s.dialogs.taskToDelete.value.id))
  {
    var vm := match s.dialogs.taskToDelete
      case Some(t) => DeleteTask(s.vm, t)
      case None => s.vm;
    Screen(vm, s.dialogs.(showDeleteConfirmationDialog := false, taskToDelete := None))
  }

  /** The delete dialog's dismiss: clears the pending task and closes, deleting nothing. */
  function DismissDelete(s: Screen): (r: Screen)
    ensures r.vm == s.vm
    ensures !r.dialogs.showDeleteConfirmationDialog && r.dialogs.taskToDelete == None
    ensures r.dialogs.showCreateEditDialog == s.dialogs.showCreateEditDialog
    ensures r.dialogs.taskToEdit == s.dialogs.taskToEdit
  {
    s.(dialogs := s.dialogs.(showDeleteConfirmationDialog := false, taskToDelete := None))
  }

  /** Confirm and dismiss leave the dialogs in the same state; only confirm touches the store. */
  lemma DeleteConfirmAndDismissAgreeOnDialogs(s: Screen)
    ensures ConfirmDelete(s).dialogs == DismissDelete(s).dialogs
    ensures ConfirmDelete(s).vm.store == DismissDelete(s).vm.store <==>
      (s.dialogs.taskToDelete.None? || s.dialogs.taskToDelete.value.id !in s.vm.store.rows)
  {
    if s.dialogs.taskToDelete.Some? {
      TaskDao.DeleteChangesIff(s.vm.store, s.dialogs.taskToDelete.value);
    }
  }

  /**
   * Creating a task through the form: whatever the box says, the stored task
   * is open, because the dispatch passes only the description and the date to
   * `addTask`; it is due on the screen's default date.
   */
  lemma CreateThroughForm(s: Screen, defaultDate: Date, events: seq<TaskFormDialog.Event>)
    requires s.dialogs.taskToEdit.None?
    requires TaskFormDialog.Confirm(TaskFormDialog.Run(FormOf(s, defaultDate), events)).Some?
    ensures var task := TaskFormDialog.Confirm(TaskFormDialog.Run(FormOf(s, defaultDate), events)).value;
      var r := ConfirmForm(s, task);
      exists id :: (id !in s.vm.store.rows && id != 0
        && TaskDao.GetAllTasks(r.vm.store) == [Task(id, task.description, false, defaultDate)] + TaskDao.GetAllTasks(s.vm.store))
  {
    var f := TaskFormDialog.Run(FormOf(s, defaultDate), events);
    var task := TaskFormDialog.Confirm(f).value;
    TaskFormDialog.DueDateNeverChanges(None, defaultDate, events);
    assert task.id == 0 && task.dueDate == defaultDate;
    var r := ConfirmForm(s, task);
    var id :| id !in s.vm.store.rows && id != 0
      && TaskDao.GetAllTasks(r.vm.store) == [Task(id, task.description, false, task.dueDate)] + TaskDao.GetAllTasks(s.vm.store);
  }

  /**
   * Editing a stored task through the form: the row under its id becomes the
   * form's description, box and the task's own due date.
   */
  lemma EditThroughForm(s: Screen, defaultDate: Date, events: seq<TaskFormDialog.Event>)
    requires s.dialogs.taskToEdit.Some? && s.dialogs.taskToEdit.value.id != 0
    requires s.dialogs.taskToEdit.value.id in s.vm.store.rows
    requires TaskFormDialog.Confirm(TaskFormDialog.Run(FormOf(s, defaultDate), events)).Some?
    ensures var f := TaskFormDialog.Run(FormOf(s, defaultDate), events);
      var t := s.dialogs.taskToEdit.value;
      ConfirmForm(s, TaskFormDialog.Confirm(f).value).vm.store.rows[t.id]
        == Task(t.id, f.description, f.isCompleted, t.dueDate)
  {
  }
}

=== FILE: task.dfy ===
/** The `Task` record: the one entity the application persists. */
module Tasks {
  import opened Calendar

  /**
   * A to-do item. `id` is the table's auto-assigned primary key; 0 means the
   * task has not been stored yet. `dueDate` is a calendar date with no time.
   */
  datatype Task = Task(id: int, description: string, isCompleted: bool, dueDate: Date)

  /**
   * The data-class constructor with its defaults. `description` has none.
   * The default due date `LocalDate.now()` reads the clock, so `dueDate` is
   * always passed: a caller relying on that default passes today's date.
   */
  function NewTask(description: string, dueDate: Date, id: int := 0, isCompleted: bool := false): Task
  {
    Task(id, description, isCompleted, dueDate)
  }

  /** Left to its defaults, a new task is unsaved, open, and due today. */
  lemma NewTaskDefaults(description: string, today: Date)
    ensures NewTask(description, today) == Task(0, description, false, today)
  {
  }

  /** A copy of the task with the completion flag flipped and every other field kept. */
  function Toggled(t: Task): (r: Task)
    ensures r.isCompleted != t.isCompleted
    ensures r.id == t.id && r.description == t.description && r.dueDate == t.dueDate
  {
    t.(isCompleted := !t.isCompleted)
  }

  /** Flipping the flag twice restores the task. */
  lemma ToggledInvolution(t: Task)
    ensures Toggled(Toggled(t)) == t
  {
  }
}

=== FILE: task_dao.dfy ===
/**
 * `TaskDao`: the `tasks` table behind an id-keyed store. Room declares the
 * operations; the model states what they do to the rows.
 */
module TaskDao {
  import opened Calendar
  import opened Tasks

  /**
   * The table's rows by primary key, and `lastId`, the largest id the table
   * has ever held (SQLite's AUTOINCREMENT counter, which deletions never lower).
   */
  datatype Table = Table(rows: map<int, Task>, lastId: int)

  /**
   * Each row is stored under its own id, id 0 is never stored (Room binds it
   * as NULL so SQLite assigns a key), and no id exceeds the counter.
   */
  predicate WellFormed(t: Table)
  {
    t.lastId >= 0 && forall id :: id in t.rows ==> id != 0 && id <= t.lastId && t.rows[id].id == id
  }

  /** A store the application can reach: every operation below keeps `WellFormed`. */
  type Store = t: Table | WellFormed(t) witness Table(map[], 0)

  /** A freshly created database. */
  const EmptyStore: Store := Table(map[], 0)

  // ----- lists of tasks -----

  /** Ids strictly decrease along the list (so no id repeats). */
  predicate IdsDescending(ts: seq<Task>)
  {
    forall i, j :: 0 <= i < j < |ts| ==> ts[i].id > ts[j].id
  }

  /**
   * `idx` places the elements of `r` in `ts` at strictly increasing
   * positions: `r` is `ts` with some elements left out.
   */
  predicate Embeds(idx: seq<int>, r: seq<Task>, ts: seq<Task>)
  {
    && |idx| == |r|
    && (forall k :: 0 <= k < |r| ==> 0 <= idx[k] < |ts| && r[k] == ts[idx[k]])
    && (forall k, l :: 0 <= k < l < |r| ==> idx[k] < idx[l])
  }

  /** `r` is an order-preserving sub-list of `ts`. */
  ghost predicate SubsequenceOf(r: seq<Task>, ts: seq<Task>)
  {
    exists idx :: Embeds(idx, r, ts)
  }

  /** Every listed task is the current row for its id. */
  predicate AllStored(s: Store, ts: seq<Task>)
  {
    forall t :: t in ts ==> t.id in s.rows && s.rows[t.id] == t
  }

  /**
   * Two listings of stored rows in descending id order that list the same
   * tasks are the same listing: order and contents are forced.
   */
  lemma {:induction false} DescendingListingUnique(s: Store, a: seq<Task>, b: seq<Task>)
    requires IdsDescending(a) && IdsDescending(b) && AllStored(s, a) && AllStored(s, b)
    requires forall t :: t in a <==> t in b
    ensures a == b
    decreases |a|
  {
    assert a != [] ==> a[0] in b;
    assert b != [] ==> b[0] in a;
    if a != [] {
      HeadsAgree(a, b);
      TailsAgree(a, b);
      DescendingListingUnique(s, a[1..], b[1..]);
    }
  }

  /** Two id-descending lists with the same members start with the same task. */
  lemma HeadsAgree(a: seq<Task>, b: seq<Task>)
    requires IdsDescending(a) && IdsDescending(b) && a != [] && b != []
    requires a[0] in b && b[0] in a
    ensures a[0] == b[0]
  {
    var i :| 0 <= i < |b| && b[i] == a[0];
    var j :| 0 <= j < |a| && a[j] == b[0];
    assert i == 0 && j == 0;
  }

  /** With the same members and the same head, the tails have the same members too. */
  lemma TailsAgree(a: seq<Task>, b: seq<Task>)
    requires IdsDescending(a) && IdsDescending(b) && a != [] && b != [] && a[0] == b[0]
    requires forall t :: t in a <==> t in b
    ensures forall t :: t in a[1..] <==> t in b[1..]
  {
    forall t
      ensures t in a[1..] <==> t in b[1..]
    {
      TailMember(a, t);
      TailMember(b, t);
    }
  }

  /**
   * In an id-descending list, the members after the head are exactly the
   * members with an id below the head's.
   */
  lemma TailMember(a: seq<Task>, t: Task)
    requires IdsDescending(a) && a != []
    ensures t in a[1..] <==> t in a && t.id < a[0].id
  {
    if t in a[1..] {
      var i :| 0 <= i < |a[1..]| && a[1..][i] == t;
      assert a[i + 1] == t;
    }
    if t in a && t.id < a[0].id {
      var i :| 0 <= i < |a| && a[i] == t;
      assert i != 0;
      assert a[1..][i - 1] == t;
    }
  }

  // ----- the queries -----

  /** A set other than the empty set has a member. */
  lemma NonEmptyHasMember(ids: set<int>)
    requires ids != {}
    ensures exists x :: x in ids
  {
    if forall x :: x !in ids {
      assert false;
    }
  }

  /** A finite non-empty set of ids has a largest element. */
  lemma {:induction false} LargestExists(ids: set<int>)
    requires ids != {}
    ensures exists m :: m in ids && forall k :: k in ids ==> k <= m
    decreases ids
  {
    NonEmptyHasMember(ids);
    var x :| x in ids;
    if ids != {x} {
      var rest := ids - {x};
      NonEmptyHasMember(ids - {x});
      LargestExists(rest);
      var m :| m in rest && forall k :: k in rest ==> k <= m;
      var top := if x > m then x else m;
      forall k | k in ids ensures k <= top {
        if k != x { assert k in rest; }
      }
      assert top in ids;
    } else {
      assert forall k :: k in ids ==> k == x;
    }
  }

  function Largest(ids: set<int>): (m: int)
    requires ids != {}
    ensures m in ids && forall k :: k in ids ==> k <= m
  {
    LargestExists(ids);
    var m :| m in ids && forall k :: k in ids ==> k <= m;
    m
  }

  /** The ids of a set, largest first (`ORDER BY id DESC`). */
  function Descending(ids: set<int>): (r: seq<int>)
    ensures forall i, j :: 0 <= i < j < |r| ==> r[i] > r[j]
    ensures forall k :: k in r <==> k in ids
    ensures |r| == |ids|
    decreases ids
  {
    if ids == {} then []
    else
      var m := Largest(ids);
      var rest := Descending(ids - {m});
      assert forall k :: k in rest ==> k < m;
      [m] + rest
  }

  /** The rows stored under the given ids, in the given order. */
  function RowsAt(s: Store, ids: seq<int>): (r: seq<Task>)
    requires forall i :: 0 <= i < |ids| ==> ids[i] in s.rows
    ensures |r| == |ids| && forall i :: 0 <= i < |r| ==> r[i] == s.rows[ids[i]]
  {
    seq(|ids|, i requires 0 <= i < |ids| => s.rows[ids[i]])
  }

  /** The rows under a set of ids, newest (largest id) first. */
  function ListNewestFirst(s: Store, ids: set<int>): (r: seq<Task>)
    requires ids <= s.rows.Keys
    ensures IdsDescending(r) && AllStored(s, r) && |r| == |ids|
    ensures forall t :: t in r <==> t.id in ids && s.rows[t.id] == t
  {
    var order := Descending(ids);
    RowsInOrder(s, ids, order);
    RowsAt(s, order)
  }

  /** The rows under a descending enumeration of `ids` list exactly those rows, newest first. */
  lemma RowsInOrder(s: Store, ids: set<int>, order: seq<int>)
    requires ids <= s.rows.Keys
    requires forall i, j :: 0 <= i < j < |order| ==> order[i] > order[j]
    requires forall k :: k in order <==> k in ids
    requires |order| == |ids|
    ensures forall i :: 0 <= i < |order| ==> order[i] in s.rows
    ensures var r := RowsAt(s, order);
      IdsDescending(r) && AllStored(s, r) && |r| == |ids|
      && forall t :: t in r <==> t.id in ids && s.rows[t.id] == t
  {
    assert forall i :: 0 <= i < |order| ==> order[i] in ids;
    var r := RowsAt(s, order);
    assert forall i :: 0 <= i < |r| ==> r[i].id == order[i] by {
      forall i | 0 <= i < |r| ensures r[i].id == order[i] {
        assert order[i] in s.rows;
      }
    }
    assert IdsDescending(r);
    forall t | t in r ensures t.id in ids && s.rows[t.id] == t {
      var i :| 0 <= i < |r| && r[i] == t;
      assert order[i] in ids;
    }
    forall t: Task | t.id in ids && s.rows[t.id] == t ensures t in r {
      var i :| 0 <= i < |order| && order[i] == t.id;
      assert r[i] == t;
    }
  }

  /** `getAllTasks`: every row of the table, newest id first. */
  function GetAllTasks(s: Store): (r: seq<Task>)
    ensures IdsDescending(r) && AllStored(s, r)
    ensures forall id :: id in s.rows ==> s.rows[id] in r
    ensures |r| == |s.rows|
  {
    ListNewestFirst(s, s.rows.Keys)
  }

  /** `getTasksForDate`: the rows due on `date`, newest id first. */
  function GetTasksForDate(s: Store, date: Date): (r: seq<Task>)
    ensures IdsDescending(r) && AllStored(s, r)
    ensures forall t :: t in r ==> t.dueDate == date
    ensures forall id :: id in s.rows && s.rows[id].dueDate == date ==> s.rows[id] in r
  {
    ListNewestFirst(s, set id | id in s.rows && s.rows[id].dueDate == date)
  }

  /** The list filter the day screen applies: the tasks due on `date`, in their original order, duplicates kept. */
  function FilterByDate(ts: seq<Task>, date: Date): (r: seq<Task>)
    ensures forall t :: t in r <==> t in ts && t.dueDate == date
    ensures forall t :: multiset(r)[t] == if t.dueDate == date then multiset(ts)[t] else 0
    ensures SubsequenceOf(r, ts)
    ensures IdsDescending(ts) ==> IdsDescending(r)
    ensures |r| <= |ts|
  {
    if ts == [] then
      assert Embeds([], [], ts);
      []
    else
      var rest := FilterByDate(ts[1..], date);
      var keep := ts[0].dueDate == date;
      var r := if keep then [ts[0]] + rest else rest;
      FilterStep(ts, date, rest, r);
      FilterCountStep(ts, date, rest, r);
      SubsequenceStep(ts, rest, keep, r);
      r
  }

  /** One step of the filter: each task is kept as often as the input has it, when it is due on the date. */
  lemma FilterCountStep(ts: seq<Task>, date: Date, rest: seq<Task>, r: seq<Task>)
    requires ts != []
    requires forall t :: multiset(rest)[t] == if t.dueDate == date then multiset(ts[1..])[t] else 0
    requires r == if ts[0].dueDate == date then [ts[0]] + rest else rest
    ensures forall t :: multiset(r)[t] == if t.dueDate == date then multiset(ts)[t] else 0
  {
    assert ts == [ts[0]] + ts[1..];
    assert multiset(ts) == multiset([ts[0]]) + multiset(ts[1..]);
    if ts[0].dueDate == date {
      assert multiset(r) == multiset([ts[0]]) + multiset(rest);
    }
  }

  /** Keeping or dropping the head of a list keeps a sub-list of its tail a sub-list. */
  lemma SubsequenceStep(ts: seq<Task>, rest: seq<Task>, keep: bool, r: seq<Task>)
    requires ts != [] && SubsequenceOf(rest, ts[1..])
    requires r == if keep then [ts[0]] + rest else rest
    ensures SubsequenceOf(r, ts)
  {
    var idx :| Embeds(idx, rest, ts[1..]);
    ShiftEmbedding(idx, rest, ts);
    if keep {
      ConsEmbedding(Shifted(idx), rest, ts);
    }
  }

  /** Every position moved one place on. */
  function Shifted(idx: seq<int>): (r: seq<int>)
    ensures |r| == |idx| && forall k :: 0 <= k < |idx| ==> r[k] == idx[k] + 1
  {
    seq(|idx|, k requires 0 <= k < |idx| => idx[k] + 1)
  }

  /** A placement in the tail, moved one place on, is a placement in the whole list. */
  lemma ShiftEmbedding(idx: seq<int>, rest: seq<Task>, ts: seq<Task>)
    requires ts != [] && Embeds(idx, rest, ts[1..])
    ensures Embeds(Shifted(idx), rest, ts) && forall k :: 0 <= k < |idx| ==> Shifted(idx)[k] >= 1
  {
    var sh := Shifted(idx);
    forall k | 0 <= k < |rest| ensures 0 <= sh[k] < |ts| && rest[k] == ts[sh[k]] {
      assert ts[1..][idx[k]] == ts[idx[k] + 1];
    }
  }

  /** A placement that avoids position 0 extends to one that also places the head there. */
  lemma ConsEmbedding(sh: seq<int>, rest: seq<Task>, ts: seq<Task>)
    requires ts != [] && Embeds(sh, rest, ts) && forall k :: 0 <= k < |sh| ==> sh[k] >= 1
    ensures Embeds([0] + sh, [ts[0]] + rest, ts)
  {
    var r, ix := [ts[0]] + rest, [0] + sh;
    forall k | 0 <= k < |r| ensures 0 <= ix[k] < |ts| && r[k] == ts[ix[k]] {
      if k > 0 {
        assert ix[k] == sh[k - 1] && r[k] == rest[k - 1];
      }
    }
    forall k, l | 0 <= k < l < |r| ensures ix[k] < ix[l] {
      assert ix[l] == sh[l - 1];
      if k > 0 {
        assert ix[k] == sh[k - 1];
      }
    }
  }

  /** One step of the filter: deciding the head keeps membership, order and the length bound. */
  lemma FilterStep(ts: seq<Task>, date: Date, rest: seq<Task>, r: seq<Task>)
    requires ts != []
    requires forall t :: t in rest <==> t in ts[1..] && t.dueDate == date
    requires IdsDescending(ts[1..]) ==> IdsDescending(rest)
    requires |rest| <= |ts| - 1
    requires r == if ts[0].dueDate == date then [ts[0]] + rest else rest
    ensures forall t :: t in r <==> t in ts && t.dueDate == date
    ensures IdsDescending(ts) ==> IdsDescending(r)
    ensures |r| <= |ts|
  {
    assert forall t :: t in ts <==> t == ts[0] || t in ts[1..];
    if ts[0].dueDate == date && IdsDescending(ts) {
      DescendingTail(ts);
      ConsDescending(ts[0], rest);
    } else if IdsDescending(ts) {
      DescendingTail(ts);
    }
  }

  /** The tail of an id-descending list is id-descending and below its head. */
  lemma DescendingTail(ts: seq<Task>)
    requires IdsDescending(ts) && ts != []
    ensures IdsDescending(ts[1..])
    ensures forall t :: t in ts[1..] ==> t.id < ts[0].id
  {
    forall t | t in ts[1..] ensures t.id < ts[0].id {
      TailMember(ts, t);
    }
  }

  /** A head above every id of an id-descending list extends it. */
  lemma ConsDescending(head: Task, rest: seq<Task>)
    requires IdsDescending(rest) && forall t :: t in rest ==> t.id < head.id
    ensures IdsDescending([head] + rest)
  {
    var l := [head] + rest;
    forall i, j | 0 <= i < j < |l| ensures l[i].id > l[j].id {
      assert l[j] == rest[j - 1];
      if i > 0 {
        assert l[i] == rest[i - 1];
      } else {
        assert rest[j - 1] in rest;
      }
    }
  }

  /**
   * The date query is the full listing filtered by date: an order-preserving
   * sub-list of `getAllTasks`.
   */
  lemma ForDateIsFilteredListing(s: Store, date: Date)
    ensures GetTasksForDate(s, date) == FilterByDate(GetAllTasks(s), date)
  {
    DescendingListingUnique(s, GetTasksForDate(s, date), FilterByDate(GetAllTasks(s), date));
  }

  // ----- the mutations -----

  /** Rows under ids other than `id` are the same, present or absent, in both stores. */
  predicate OthersUnchanged(s: Store, r: Store, id: int)
  {
    && (forall k :: k in s.rows && k != id ==> k in r.rows && r.rows[k] == s.rows[k])
    && (forall k :: k in r.rows && k != id ==> k in s.rows)
  }

  /** The key a row is stored under by `insert`: AUTOINCREMENT's next value for id 0. */
  function InsertedId(s: Store, t: Task): (id: int)
    ensures id != 0
    ensures t.id != 0 ==> id == t.id
    ensures t.id == 0 ==> id !in s.rows && forall k :: k in s.rows ==> k < id
  {
    if t.id == 0 then s.lastId + 1 else t.id
  }

  /**
   * `insert` with `OnConflictStrategy.REPLACE`: id 0 stores the task under a
   * new id larger than any the table ever held; any other id stores it under
   * that id, replacing the row there if there is one. The next new id stays
   * as it was unless the stored id reached it; then it is one past that id.
   */
  function Insert(s: Store, t: Task): (r: Store)
    ensures t.id != 0 ==> InsertedId(s, t) == t.id
    ensures InsertedId(s, t) in r.rows && r.rows[InsertedId(s, t)] == t.(id := InsertedId(s, t))
    ensures OthersUnchanged(s, r, InsertedId(s, t))
    ensures |r.rows| == if InsertedId(s, t) in s.rows then |s.rows| else |s.rows| + 1
    ensures forall u: Task :: u.id == 0 ==>
      InsertedId(r, u) == if InsertedId(s, t) < InsertedId(s, u) then InsertedId(s, u) else InsertedId(s, t) + 1
  {
    var id := InsertedId(s, t);
    Table(s.rows[id := t.(id := id)], if id > s.lastId then id else s.lastId)
  }

  /** `update`: replaces the row with the task's id; without such a row nothing changes. */
  function Update(s: Store, t: Task): (r: Store)
    ensures t.id in s.rows ==> t.id in r.rows && r.rows[t.id] == t
    ensures t.id !in s.rows ==> r == s
    ensures OthersUnchanged(s, r, t.id) && r.rows.Keys == s.rows.Keys
    ensures forall u: Task :: u.id == 0 ==> InsertedId(r, u) == InsertedId(s, u)
  {
    if t.id in s.rows then s.(rows := s.rows[t.id := t]) else s
  }

  /** `delete`: removes the row with the task's id, whatever its other fields. */
  function Delete(s: Store, t: Task): (r: Store)
    ensures t.id !in r.rows
    ensures OthersUnchanged(s, r, t.id)
    ensures |r.rows| == if t.id in s.rows then |s.rows| - 1 else |s.rows|
    ensures forall u: Task :: u.id == 0 ==> InsertedId(r, u) == InsertedId(s, u)
  {
    s.(rows := s.rows - {t.id})
  }

  /** The id of a deleted row is never handed out again: the next new task gets a larger one. */
  lemma DeletedIdNotReused(s: Store, t: Task, u: Task)
    requires t.id in s.rows && u.id == 0
    ensures InsertedId(Delete(s, t), u) > t.id
  {
  }

  /** A delete changes the table exactly when a row has the task's id. */
  lemma DeleteChangesIff(s: Store, t: Task)
    ensures Delete(s, t) == s <==> t.id !in s.rows
  {
    if t.id !in s.rows {
      assert s.rows - {t.id} == s.rows;
    }
  }

  /** `deleteAllTasks`: every row is removed; the AUTOINCREMENT counter is kept. */
  function DeleteAll(s: Store): (r: Store)
    ensures r.rows == map[]
    ensures forall t: Task :: t.id == 0 ==> InsertedId(r, t) == InsertedId(s, t)
  {
    s.(rows := map[])
  }

  // ----- what the queries see after a mutation -----

  /**
   * A task inserted with id 0 gets an id no stored task has, and heads the
   * newest-first listing, ahead of everything that was there before.
   */
  lemma InsertNewHeadsListing(s: Store, t: Task)
    requires t.id == 0
    ensures GetAllTasks(Insert(s, t)) == [t.(id := InsertedId(s, t))] + GetAllTasks(s)
  {
    var r := Insert(s, t);
    var expected := [t.(id := InsertedId(s, t))] + GetAllTasks(s);
    PrependedListing(s, t, r, expected);
    DescendingListingUnique(r, GetAllTasks(r), expected);
  }

  lemma PrependedListing(s: Store, t: Task, r: Store, expected: seq<Task>)
    requires t.id == 0 && r == Insert(s, t)
    requires expected == [t.(id := InsertedId(s, t))] + GetAllTasks(s)
    ensures IdsDescending(expected) && AllStored(r, expected)
    ensures forall u :: u in expected <==> u in GetAllTasks(r)
  {
    var head := t.(id := InsertedId(s, t));
    var before := GetAllTasks(s);
    assert forall u :: u in before ==> u.id < head.id;
    ConsDescending(head, before);
    PrependedRows(s, r, head, before);
  }

  /**
   * When `r` is `s` with one new row `head` under an id `s` lacks, the rows
   * of `r` are `head` and the rows of `s`.
   */
  lemma PrependedRows(s: Store, r: Store, head: Task, before: seq<Task>)
    requires head.id !in s.rows && head.id in r.rows && r.rows[head.id] == head
    requires OthersUnchanged(s, r, head.id)
    requires AllStored(s, before) && forall id :: id in s.rows ==> s.rows[id] in before
    ensures AllStored(r, [head] + before)
    ensures forall u :: u in [head] + before <==> u in GetAllTasks(r)
  {
    var expected := [head] + before;
    forall u | u in expected ensures u.id in r.rows && r.rows[u.id] == u {
      if u != head {
        assert u in before;
      }
    }
    var after := GetAllTasks(r);
    forall u | u in after ensures u in expected {
      if u.id != head.id {
        assert u == s.rows[u.id];
      }
    }
  }

  /** Replacing an existing row keeps the number of rows. */
  lemma InsertExistingKeepsSize(s: Store, t: Task)
    requires t.id in s.rows
    ensures |GetAllTasks(Insert(s, t))| == |GetAllTasks(s)|
    ensures t in GetAllTasks(Insert(s, t))
  {
  }

  /** After `delete`, the listing holds no task with that id, and loses only that row. */
  lemma DeleteRemovesFromListing(s: Store, t: Task)
    ensures forall u :: u in GetAllTasks(Delete(s, t)) ==> u.id != t.id
    ensures forall u :: u in GetAllTasks(s) && u.id != t.id ==> u in GetAllTasks(Delete(s, t))
  {
  }

  /** After `deleteAllTasks`, both queries return nothing. */
  lemma DeleteAllEmptiesQueries(s: Store, date: Date)
    ensures GetAllTasks(DeleteAll(s)) == []
    ensures GetTasksForDate(DeleteAll(s), date) == []
  {
  }
}

=== FILE: task_form_dialog.dfy ===
/**
 * `TaskFormDialog`: the create/edit form. It holds the description, the
 * completion box and the due date; confirming builds the task to save.
 */
module TaskFormDialog {
  import opened Wrappers
  import opened Calendar
  import opened Tasks

  /** The form's state: the task being edited (None when creating) and the three fields. */
  datatype Form = Form(original: Option<Task>, description: string, isCompleted: bool, dueDate: Date)

  /**
   * The form as it opens: an edited task's own fields, or an empty
   * description, an unticked box and `selectedDate` for a new task.
   */
  function Open(task: Option<Task>, selectedDate: Date): (f: Form)
    ensures f.original == task
    ensures task.Some? ==> (f.description == task.value.description
      && f.isCompleted == task.value.isCompleted && f.dueDate == task.value.dueDate)
    ensures task.None? ==> f.description == "" && !f.isCompleted && f.dueDate == selectedDate
  {
    match task
    case Some(t) => Form(task, t.description, t.isCompleted, t.dueDate)
    case None => Form(task, "", false, selectedDate)
  }

  /** What the user can do inside the form. The date button's handler is empty. */
  datatype Event = TypeDescription(text: string) | CheckCompleted(checked: bool) | PressChangeDate

  function Step(f: Form, e: Event): (r: Form)
    ensures r.original == f.original && r.dueDate == f.dueDate
    ensures e.TypeDescription? ==> r.description == e.text && r.isCompleted == f.isCompleted
    ensures e.CheckCompleted? ==> r.isCompleted == e.checked && r.description == f.description
    ensures e.PressChangeDate? ==> r == f
  {
    match e
    case TypeDescription(text) => f.(description := text)
    case CheckCompleted(checked) => f.(isCompleted := checked)
    case PressChangeDate => f
  }

  /** The form after a sequence of events. */
  function Run(f: Form, events: seq<Event>): (r: Form)
    ensures r.original == f.original && r.dueDate == f.dueDate
    ensures (forall i :: 0 <= i < |events| ==> !events[i].TypeDescription?) ==> r.description == f.description
    decreases |events|
  {
    if events == [] then f else Run(Step(f, events[0]), events[1..])
  }

  /**
   * `Char.isWhitespace` on the JVM: Java's `Character.isWhitespace` or
   * `Character.isSpaceChar` (the Unicode space, line and paragraph separators).
   */
  predicate IsWhitespace(c: char)
  {
    ('\U{9}' <= c <= '\U{D}') || ('\U{1C}' <= c <= '\U{1F}') || c == ' ' || c == '\U{A0}'
    || c == '\U{1680}' || ('\U{2000}' <= c <= '\U{200A}') || c == '\U{2028}' || c == '\U{2029}'
    || c == '\U{202F}' || c == '\U{205F}' || c == '\U{3000}'
  }

  /** `isBlank`: empty, or nothing but whitespace. */
  predicate IsBlank(s: string)
  {
    forall i :: 0 <= i < |s| ==> IsWhitespace(s[i])
  }

  /**
   * The confirm button: nothing happens while the description is blank;
   * otherwise an edited task keeps its id and everything the form does not
   * show, and a new task gets id 0 and the form's fields.
   */
  function Confirm(f: Form): (r: Option<Task>)
    ensures r.None? <==> IsBlank(f.description)
    ensures r.Some? ==> (r.value.description == f.description
      && r.value.isCompleted == f.isCompleted && r.value.dueDate == f.dueDate)
    ensures r.Some? && f.original.Some? ==> r.value.id == f.original.value.id
    ensures r.Some? && f.original.None? ==> r.value.id == 0
  {
    if IsBlank(f.description) then None
    else match f.original
      case Some(t) => Some(t.(description := f.description, isCompleted := f.isCompleted, dueDate := f.dueDate))
      case None => Some(NewTask(f.description, f.dueDate, isCompleted := f.isCompleted))
  }

  /**
   * Whatever the user does in the form, a confirmed task is due on the date
   * the form opened with: the edited task's date, or `selectedDate`.
   */
  lemma DueDateNeverChanges(task: Option<Task>, selectedDate: Date, events: seq<Event>)
    ensures var r := Confirm(Run(Open(task, selectedDate), events));
      r.Some? ==> r.value.dueDate == (if task.Some? then task.value.dueDate else selectedDate)
  {
  }

  /** Confirming an edit without touching the form saves the task unchanged. */
  lemma UntouchedEditIsIdentity(t: Task, selectedDate: Date)
    requires !IsBlank(t.description)
    ensures Confirm(Open(Some(t), selectedDate)) == Some(t)
  {
  }

  /** A new-task form confirmed before anything is typed does nothing. */
  lemma UntypedCreateIsRejected(selectedDate: Date, events: seq<Event>)
    requires forall i :: 0 <= i < |events| ==> !events[i].TypeDescription?
    ensures Confirm(Run(Open(None, selectedDate), events)) == None
  {
  }

  /** Whitespace-only descriptions are refused: spaces, tabs, line breaks, no-break spaces. */
  lemma WhitespaceIsRejected(f: Form)
    requires |f.description| > 0 && forall i :: 0 <= i < |f.description| ==> f.description[i] in {' ', '\t', '\n', '\U{A0}'}
    ensures Confirm(f) == None
  {
  }

  /** A description with a letter or digit in it is accepted. */
  lemma VisibleTextIsAccepted(f: Form, i: int)
    requires 0 <= i < |f.description|
    requires 'a' <= f.description[i] <= 'z' || 'A' <= f.description[i] <= 'Z' || '0' <= f.description[i] <= '9'
    ensures Confirm(f).Some?
  {
  }
}

=== FILE: task_view_model.dfy ===
/**
 * `TaskViewModel`: the selected date, the two task lists the screens observe,
 * and the intents that write through to the store. The store's writes run in
 * coroutines and the lists are `StateFlow`s; here an intent returns the next
 * state at once, and `Settle` stands for the moment both flows have caught up
 * with the store.
 */
module TaskViewModel {
  import opened Wrappers
  import opened Calendar
  import opened Tasks
  import opened TaskDao

  /** The store it writes through, the selected date, and the flows' current values. */
  datatype ViewModel = ViewModel(store: Store, selectedDate: Date, tasksForSelectedDate: seq<Task>, allTasks: seq<Task>)

  /** Both flows show what the store's queries return for the current state. */
  predicate Settled(vm: ViewModel)
  {
    vm.tasksForSelectedDate == GetTasksForDate(vm.store, vm.selectedDate)
    && vm.allTasks == GetAllTasks(vm.store)
  }

  /** A fresh view-model: today is selected and both flows start as empty lists. */
  function Create(store: Store, today: Date): (vm: ViewModel)
    ensures vm.store == store && vm.selectedDate == today
    ensures vm.tasksForSelectedDate == [] && vm.allTasks == []
    ensures Settled(vm) <==> store.rows == map[]
  {
    ViewModel(store, today, [], [])
  }

  /**
   * The flows after they have caught up: the day's list is the store's tasks
   * due on the selected date, newest first, and nothing else.
   */
  function Settle(vm: ViewModel): (r: ViewModel)
    ensures r.store == vm.store && r.selectedDate == vm.selectedDate && Settled(r)
    ensures forall t :: t in r.tasksForSelectedDate <==> t in r.allTasks && t.dueDate == vm.selectedDate
    ensures r.tasksForSelectedDate == FilterByDate(r.allTasks, vm.selectedDate)
  {
    ForDateIsFilteredListing(vm.store, vm.selectedDate);
    vm.(tasksForSelectedDate := GetTasksForDate(vm.store, vm.selectedDate), allTasks := GetAllTasks(vm.store))
  }

  /** `selectDate`: the selected date becomes `date`; the store is untouched. */
  function SelectDate(vm: ViewModel, date: Date): (r: ViewModel)
    ensures r == vm.(selectedDate := date)
    ensures Settle(r).tasksForSelectedDate == GetTasksForDate(vm.store, date)
  {
    vm.(selectedDate := date)
  }

  /** Only the latest selection matters: the day's list follows the last date selected. */
  lemma LatestSelectionWins(vm: ViewModel, d1: Date, d2: Date)
    ensures Settle(SelectDate(SelectDate(vm, d1), d2)) == Settle(SelectDate(vm, d2))
    ensures forall t :: t in Settle(SelectDate(SelectDate(vm, d1), d2)).tasksForSelectedDate ==> t.dueDate == d2
  {
  }

  /**
   * `goToNextMonth`: the selected date moves one month on with its day clamped;
   * `plusMonths` throws past year 999999999, which is the failure here.
   */
  function GoToNextMonth(vm: ViewModel): (r: Result<ViewModel, DateError>)
    ensures r.Success? <==> MonthIndex(vm.selectedDate) + 1 <= MonthIndex(LocalDate(MaxYear, 12, 1))
    ensures r.Success? ==> r.value == vm.(selectedDate := r.value.selectedDate)
    ensures r.Success? ==> MonthIndex(r.value.selectedDate) == MonthIndex(vm.selectedDate) + 1
    ensures r.Success? ==> DayClamped(vm.selectedDate, r.value.selectedDate)
  {
    match PlusMonths(vm.selectedDate, 1)
    case Success(d) => Success(vm.(selectedDate := d))
    case Failure(e) => Failure(e)
  }

  /** `goToPreviousMonth`: the selected date moves one month back with its day clamped. */
  function GoToPreviousMonth(vm: ViewModel): (r: Result<ViewModel, DateError>)
    ensures r.Success? <==> MonthIndex(LocalDate(MinYear, 1, 1)) <= MonthIndex(vm.selectedDate) - 1
    ensures r.Success? ==> r.value == vm.(selectedDate := r.value.selectedDate)
    ensures r.Success? ==> MonthIndex(r.value.selectedDate) + 1 == MonthIndex(vm.selectedDate)
    ensures r.Success? ==> DayClamped(vm.selectedDate, r.value.selectedDate)
  {
    match MinusMonths(vm.selectedDate, 1)
    case Success(d) => Success(vm.(selectedDate := d))
    case Failure(e) => Failure(e)
  }

  /**
   * `addTask`: a task with the description and due date, not completed and
   * with id 0, so the store gives it a new id; it heads the full listing.
   */
  function AddTask(vm: ViewModel, description: string, dueDate: Date): (r: ViewModel)
    ensures r.selectedDate == vm.selectedDate
    ensures exists id :: (id !in vm.store.rows && id != 0
      && GetAllTasks(r.store) == [Task(id, description, false, dueDate)] + GetAllTasks(vm.store))
  {
    var t := NewTask(description, dueDate);
    NewTaskDefaults(description, dueDate);
    InsertNewHeadsListing(vm.store, t);
    assert Task(InsertedId(vm.store, t), description, false, dueDate) == t.(id := InsertedId(vm.store, t));
    vm.(store := Insert(vm.store, t))
  }

  /** `updateTask`: the stored row with the task's id becomes the task; no other row changes. */
  function UpdateTask(vm: ViewModel, task: Task): (r: ViewModel)
    ensures r.selectedDate == vm.selectedDate
    ensures task.id in vm.store.rows ==> task.id in r.store.rows && r.store.rows[task.id] == task
    ensures task.id !in vm.store.rows ==> r.store == vm.store
    ensures OthersUnchanged(vm.store, r.store, task.id)
  {
    vm.(store := Update(vm.store, task))
  }

  /**
   * `toggleTaskCompletion`: stores the given task with its completion flag
   * flipped; the description and due date written are the task's own.
   */
  function ToggleTaskCompletion(vm: ViewModel, task: Task): (r: ViewModel)
    ensures r.selectedDate == vm.selectedDate
    ensures task.id in vm.store.rows ==> task.id in r.store.rows
    ensures task.id in vm.store.rows ==>
      r.store.rows[task.id].isCompleted == !task.isCompleted
      && r.store.rows[task.id].description == task.description
      && r.store.rows[task.id].dueDate == task.dueDate
    ensures task.id !in vm.store.rows ==> r.store == vm.store
    ensures OthersUnchanged(vm.store, r.store, task.id)
  {
    vm.(store := Update(vm.store, Toggled(task)))
  }

  /**
   * Ticking a task's box twice, each time on the version the list shows,
   * leaves the store as it was.
   */
  lemma ToggleTwiceRestores(vm: ViewModel, task: Task)
    requires task.id in vm.store.rows && vm.store.rows[task.id] == task
    ensures var once := ToggleTaskCompletion(vm, task);
      ToggleTaskCompletion(once, once.store.rows[task.id]).store == vm.store
  {
    var once := ToggleTaskCompletion(vm, task);
    ToggledInvolution(task);
    assert once.store.rows[task.id] == Toggled(task);
    var twice := ToggleTaskCompletion(once, once.store.rows[task.id]);
    assert twice.store.rows == vm.store.rows;
  }

  /** `deleteTask`: the row with the task's id goes; no other row changes. */
  function DeleteTask(vm: ViewModel, task: Task): (r: ViewModel)
    ensures r.selectedDate == vm.selectedDate
    ensures task.id !in r.store.rows
    ensures OthersUnchanged(vm.store, r.store, task.id)
    ensures forall t :: t in Settle(r).tasksForSelectedDate ==> t.id != task.id
  {
    DeleteRemovesFromListing(vm.store, task);
    vm.(store := Delete(vm.store, task))
  }
}

=== FILE: wrappers.dfy ===
/** Failure-carrying result types shared by the model. */
module Wrappers {

  /** A value that may be absent: Kotlin's nullable `T?`. */
  datatype Option<+T> = None | Some(value: T)

  /** The outcome of an operation that may throw. */
  datatype Result<+R, +E> = Success(value: R) | Failure(error: E)
}
